=== FILE: README.md ===
# SentinelX core, modelled in Dafny

SentinelX is a malware-triage dashboard made of a React front end and a
FastAPI back end. A user uploads a file. The back end matches it against
stored YARA rules, asks a language model for a verdict when no rule
matches, and may have the model write a new rule. The rule catalog grows by
syncing three public feeds: GitHub rule files, AlienVault OTX pulses and
MalwareBazaar hashes.

This project models that core as pure Dafny functions, state machines and
one loop method each for the feed sync and the GitHub rule-file sync. It
proves what each part promises.

| file | module | models |
|---|---|---|
| `wrappers.dfy` | `Wrappers`, `Http` | `Option`, `Result`, and an HTTP call outcome: an answer with a status and a body, or a raised exception |
| `text.dfy` | `Text` | the string primitives the sources use: ASCII `lower`/`upper`, `in`/`includes`, `strip`/`rstrip`, `replace`, `join`, `split`, `str(n)` and `int(ds)` |
| `select.dfy` | `Select` | order-preserving selection: a filter's output pinned down by the increasing list of positions it keeps, the reference every filter below is compared with |
| `models.dfy` | `Models` | the rule, scan-result and sync-request records with their defaults and required fields |
| `gemini.dfy` | `Gemini` | printable-string extraction, parsing of the model's reply, rule clean-up |
| `feed_service.dfy` | `FeedService` | the three feed fetchers that turn HTTP answers into rule records, and their ordering |
| `server.dfy` | `Server` | the scan verdict, the de-duplicating feed sync, the rule listing and the sync trigger |
| `threat_feeds.dfy` | `ThreatFeeds` | the MalwareBazaar and OTX summarisers |
| `github_sync.dfy` | `GithubSync` | the fixed-list GitHub rule-file sync |
| `threat_chart.dfy` | `ThreatChart` | the verdict chart's colour band and bars |
| `scan_page.dfy` | `ScanPage` | the upload page as a state machine over submit, timer-tick and response events |
| `intel_page.dfy` | `IntelPage` | the rules page: search, severity badges, statistics, export, the sync controls as a state machine |
| `toasts.dfy` | `Toasts` | the three kinds of notification |

Outside effects become inputs:
- Every HTTP call is an `Outcome` value.
- The YARA engine's matches are a sequence of rule names.
- The language model's answer is a `Reply` value: text, or an exception.
- Record ids, random tokens and timestamps are parameters.
- The database is a sequence of records.
- A timer firing is an event.

Behaviours worth knowing, modelled as the code has them:
- The safe verdict string is `SAFE`.
- After a failed scan the page neither sets the progress bar to 100 nor
  stops the progress interval (`ScanPage.FailureLeavesTimer`,
  `ScanPage.LeakedIntervalScenario`).
- The chart's entropy bar goes negative below a confidence of 10
  (`ThreatChart.EntropyNegativeBelowTen`).
- The rule search matches `rule_id`, not the record `id`.

## Model

| member | source | states |
|---|---|---|
| Models.NewYaraRule | backend/models.py:6-16 | a rule record exists exactly when rule_id, name, content and source are all given; otherwise the error lists exactly the missing ones among those four; family defaults to "Unknown" and severity to "Medium"; given values are kept |
| Models.NewScanResult | backend/models.py:18-29 | an omitted rule list becomes empty and an omitted insight becomes ""; every given field is kept, and the record takes the fresh id and the current time |
| Models.NewSyncRequest | backend/models.py:31-32 | an omitted source list means all three feeds, in the order github, otx, malwarebazaar |
| Text.Strip | backend/services/gemini_service.py:93 | the result is a slice of the input with only whitespace cut off on either side, and it neither starts nor ends with whitespace; every non-whitespace character survives |
| Text.ContainsIffOccurs | backend/services/gemini_service.py:81 | the substring test holds exactly when the pattern occurs at some index |
| Text.SplitJoin | backend/services/gemini_service.py:29 | splitting a join on a character absent from all parts gives the parts back |
| Text.JoinSplit | backend/services/feed_service.py:45 | joining the parts of a split with the separator gives the original string |
| Text.ReplaceChar | backend/services/feed_service.py:48 | the result is the input with every occurrence of one character replaced and nothing else changed |
| Text.ReplaceCharIsReplaceAll | backend/services/feed_service.py:48 | replacing one character is the general string replacement with one-character pattern and replacement |
| Text.DigitsValueOfNatToString | backend/services/gemini_service.py:87 | reading back the decimal digits of n gives n |
| ThreatChart.ColorBand | frontend/src/components/ThreatChart.jsx:5-9 | green exactly below 30, amber exactly from 30 to 59, red exactly from 60 |
| ThreatChart.ColorBandMonotone | frontend/src/components/ThreatChart.jsx:5-9 | a higher confidence never gives a milder colour |
| ThreatChart.Categories | frontend/src/components/ThreatChart.jsx:11-16 | four bars in fixed order; malicious bars never exceed 100 and are ordered string ≥ signature ≥ behaviour ≥ entropy; safe bars are 10, 5, 8, 12 |
| ThreatChart.MaliciousBarsInRange | frontend/src/components/ThreatChart.jsx:11-16 | for a confidence from 10 to 100 every malicious bar is a valid percentage |
| ThreatChart.EntropyNegativeBelowTen | frontend/src/components/ThreatChart.jsx:14 | below a confidence of 10 the malicious entropy bar is negative |
| ThreatChart.SafeBarsIgnoreConfidence | frontend/src/components/ThreatChart.jsx:11-16 | a safe verdict's bars do not depend on the confidence |
| ScanPage.TickBounded | frontend/src/pages/CommandCenterPage.jsx:65-67 | a progress tick never lowers progress at or under 80 and never lifts it above 80 |
| ScanPage.TicksClosedForm | frontend/src/pages/CommandCenterPage.jsx:65-67 | n ticks add 5 per tick, capped at 80 |
| ScanPage.TwelveTicksToCeiling | frontend/src/pages/CommandCenterPage.jsx:58-67 | from the initial 20% the bar reaches 80% on the twelfth tick and not before |
| ScanPage.Normalize | frontend/src/pages/CommandCenterPage.jsx:84-93 | a missing rule list shows as empty; every other response field is shown as received |
| ScanPage.Notify | frontend/src/pages/CommandCenterPage.jsx:95-99 | an error toast naming the file exactly when the verdict is MALICIOUS, a fixed success toast otherwise |
| ScanPage.FailureMessage | frontend/src/pages/CommandCenterPage.jsx:101-104 | the backend's non-empty detail is preferred; otherwise the transport error's message is used |
| ScanPage.Step | frontend/src/pages/CommandCenterPage.jsx:47-109 | every event keeps progress within 0..100 and, while scanning, at most 80 with a request in flight; live intervals never fall below in-flight requests; at most one toast per event |
| ScanPage.SubmitResets | frontend/src/pages/CommandCenterPage.jsx:47-59 | choosing a file clears the old result, shows 20% and starts one more interval and request |
| ScanPage.SuccessFinalizes | frontend/src/pages/CommandCenterPage.jsx:78-99 | a success stops one interval, shows exactly 100%, stores the normalised result and raises the verdict toast |
| ScanPage.FailureLeavesTimer | frontend/src/pages/CommandCenterPage.jsx:101-108 | a failure clears the result and raises one error toast, but keeps the interval and the progress |
| ScanPage.SettledIsIdle | frontend/src/pages/CommandCenterPage.jsx:105-108 | after either outcome the page is not scanning and shows no stage |
| ScanPage.LeakedIntervalScenario | frontend/src/pages/CommandCenterPage.jsx:65-80 | after a failed scan the bar keeps moving, and it later pulls a successful scan's 100% back to 80% |
| ScanPage.MaliciousScanScenario | frontend/src/pages/CommandCenterPage.jsx:53-99 | a malicious response ends with its verdict, confidence and rules shown and a threat toast naming the file |
| IntelPage.Filter | frontend/src/pages/ThreatIntelPage.jsx:99-103 | the table is a subsequence of the catalog, holds only matching rules, and holds every matching rule |
| IntelPage.FilterSelects | frontend/src/pages/ThreatIntelPage.jsx:99-103 | the table is exactly the matching rules, in catalog order and with repeats kept: it lines up one-to-one with the increasing list of matching positions |
| IntelPage.FilterEmptyTerm | frontend/src/pages/ThreatIntelPage.jsx:99-103 | an empty search shows the whole catalog |
| IntelPage.SeverityBadge | frontend/src/pages/ThreatIntelPage.jsx:105-116 | critical, high and medium (any letter case) each get their own badge; an absent or other severity gets the outline badge |
| IntelPage.CriticalPlusHighAtMostTotal | frontend/src/pages/ThreatIntelPage.jsx:147-164 | the critical and high cards together never exceed the total |
| IntelPage.CountTierIgnoresCase | frontend/src/pages/ThreatIntelPage.jsx:149 | the severity counts do not depend on letter case |
| IntelPage.Sources | frontend/src/pages/ThreatIntelPage.jsx:177 | the sources card counts exactly the distinct source values, between 1 and the total for a non-empty catalog |
| IntelPage.ComputeStats | frontend/src/pages/ThreatIntelPage.jsx:135-178 | the cards show the number of rules, the critical and the high counts (CountTier), and the number of distinct sources (Sources); the two tiers together never exceed the total, and a non-empty catalog has at least one source |
| IntelPage.CountTierSelects | frontend/src/pages/ThreatIntelPage.jsx:147-163 | a tier count is the number of positions whose lower-cased severity equals the tier: the increasing list of exactly those positions has that length |
| IntelPage.Export | frontend/src/pages/ThreatIntelPage.jsx:88-97 | the download is the rule text, named after the rule with ".yar" appended, and is confirmed with a toast |
| IntelPage.ActiveSources | frontend/src/pages/ThreatIntelPage.jsx:60-61 | a feed is sent exactly when its box is checked, in the fixed key order |
| IntelPage.Step | frontend/src/pages/ThreatIntelPage.jsx:42-86 | only a successful fetch changes the catalog; only a sync click posts, and never with an empty list; only an accepted trigger schedules a 5000 ms re-fetch |
| IntelPage.NoSourceNoPost | frontend/src/pages/ThreatIntelPage.jsx:63-66 | with no feed checked a sync click only shows an error |
| IntelPage.SyncPostsActiveSources | frontend/src/pages/ThreatIntelPage.jsx:68-73 | with some feed checked a sync click posts exactly the checked feeds |
| IntelPage.TriggerOkSchedulesOneRefetch | frontend/src/pages/ThreatIntelPage.jsx:75-79 | an accepted trigger schedules exactly one re-fetch after 5000 ms and ends syncing |
| IntelPage.TriggerFailNoRetry | frontend/src/pages/ThreatIntelPage.jsx:81-85 | a rejected trigger shows one error, schedules nothing and does not retry |
| IntelPage.FetchSettles | frontend/src/pages/ThreatIntelPage.jsx:42-54 | a successful fetch replaces the catalog and a failed one keeps it; loading ends either way |
| IntelPage.GithubSyncScenario | frontend/src/pages/ThreatIntelPage.jsx:60-86 | syncing GitHub alone posts ["github"] and the timer re-requests the catalog once |
| Gemini.SpansFrom | backend/services/gemini_service.py:27 | every reported span is a maximal printable run of the minimum length, and spans come in order without overlap |
| Gemini.SpansComplete | backend/services/gemini_service.py:27 | every maximal printable run of the minimum length is reported |
| Gemini.ExtractStrings | backend/services/gemini_service.py:23-31 | splitting the preview on newlines gives back exactly the first 2000 qualifying runs |
| Gemini.FirstConfidence | backend/services/gemini_service.py:85 | the confidence pattern is taken at its leftmost match |
| Gemini.FirstReason | backend/services/gemini_service.py:91 | the reason label is taken at its leftmost occurrence, in any letter case |
| Gemini.ParseConfidence | backend/services/gemini_service.py:84-87 | the confidence is the number written by the digits of the leftmost match of the pattern, and 0 when nothing matches |
| Gemini.ParseReason | backend/services/gemini_service.py:89-93 | without the reason label the reason is the fixed sentence; when the leftmost `REASON:` label (any case) is at p, it is the stripped rest of the reply after p and the whitespace that follows the label, across newlines |
| Gemini.ParseReply | backend/services/gemini_service.py:79-95 | the verdict is malicious exactly when the upper-cased reply contains "STATUS: MALICIOUS"; the reason is the one ParseReason reads and the confidence the one ParseConfidence reads, so never negative |
| Gemini.AnalyzeFile | backend/services/gemini_service.py:33-99 | no client gives the fixed unavailable answer; a raising call gives a non-malicious answer carrying the message; otherwise the reply is parsed |
| Gemini.ConfidenceRoundTrip | backend/services/gemini_service.py:84-87 | a reply that starts with "CONFIDENCE: n" parses back to n, with no cap at 100 |
| Gemini.MissingFieldsDefault | backend/services/gemini_service.py:81-93 | any reply without the marker, without a confidence match and without the reason label is read as safe, with confidence 0 and the fixed reason |
| Gemini.SafeReplyDefaults | backend/services/gemini_service.py:81-93 | the bare reply "SAFE" meets those conditions and is read that way |
| Gemini.FenceRemovalComplete | backend/services/gemini_service.py:129 | removing every triple backtick leaves none behind |
| Gemini.CleanRule | backend/services/gemini_service.py:127-129 | no code fence survives the clean-up |
| Gemini.GenerateYaraRule | backend/services/gemini_service.py:101-133 | there is a rule exactly when a client exists and the call replied; it is the cleaned reply, with no code fence |
| FeedService.FetchAll | backend/services/feed_service.py:20-33 | GitHub's rules come first, then OTX's right after them, then MalwareBazaar's at the end; each group is present exactly when requested |
| FeedService.FetchAllOnlyMembership | backend/services/feed_service.py:20-33 | only which known feeds are requested matters, not their order, repeats or unknown names |
| FeedService.FirstRuleKeyword | backend/services/feed_service.py:47 | the rule-name pattern is taken at its leftmost match |
| FeedService.LastSegment | backend/services/feed_service.py:45 | the file name is the URL's suffix after its last '/' (the whole URL when there is none): a suffix starting at the beginning or after a '/', holding no '/' |
| FeedService.GithubRuleName | backend/services/feed_service.py:45-48 | with a rule declaration the name is the identifier captured by the leftmost `rule` match, a non-empty run of word characters; otherwise it is the URL's file name with every '.' turned into '_' |
| FeedService.GithubRulesFor | backend/services/feed_service.py:35-60 | at most one rule per URL, each built from a 200 answer's body with the fixed source, family and severity; when every URL answers 200 there is a rule for each |
| FeedService.GithubRulesForSelects | backend/services/feed_service.py:40-58 | the rules are exactly one per URL that answered 200, in URL order, each built from that URL and its own body; every other URL is skipped |
| FeedService.GithubRules | backend/services/feed_service.py:14-18 | the GitHub fetcher yields at most three rules |
| FeedService.GithubNameFromContent | backend/services/feed_service.py:47-48 | a file declaring "rule Eicar" is named "Eicar" |
| FeedService.GithubNameFallback | backend/services/feed_service.py:45-48 | a file with no declaration at "a/b.yar" is named "b_yar" |
| FeedService.OtxRules | backend/services/feed_service.py:62-102 | no key, an exception or a non-200 answer yields nothing; otherwise the first five pulses become rules "OTX_"+id, with unnamed pulses called "Unknown Pulse", rule k being OtxRule of pulse k |
| FeedService.OtxRule | backend/services/feed_service.py:80-97 | id "OTX_"+id, the pulse name, source "AlienVault-OTX", family "Threat-Pulse", severity "Medium"; the content opens with "rule OTX_"+id and ends with a `false` condition, so it never matches |
| FeedService.RecentHashes | backend/services/feed_service.py:119-120 | every hash is a non-empty hash of some sample, and every sample's non-empty hash is there |
| FeedService.RecentHashesSelects | backend/services/feed_service.py:119-123 | the hashes are exactly those of the samples with a non-empty hash, in sample order and with repeats kept, so their count (the number in the rule id) is the number of such samples |
| FeedService.HashConditionsJoinWithOr | backend/services/feed_service.py:123-125 | the character-set strip removes only the final " or", so the condition is the clauses joined by " or" and a line break |
| FeedService.BazaarRules | backend/services/feed_service.py:104-149 | exactly one rule when the answer is 200 with status "ok" and some hash among the first 20 samples; its id counts the hashes, and the rule is BazaarRule of exactly those hashes |
| FeedService.BazaarRule | backend/services/feed_service.py:124-145 | id "MalwareBazaar_Recent_" + the hash count, family "Various", severity "Critical", source "MalwareBazaar"; the content opens with the hash import and the rule header and ends with "condition:", the hash conditions and "}"; when there is at least one hash, those conditions are the clauses `hash.sha256(0, filesize) == "h"` joined by " or" and a line break |
| FeedService.FirstSamples | backend/services/feed_service.py:119 | at most 20 samples are used |
| FeedService.FetchAllFromBound | backend/services/feed_service.py:20-33 | one sync collects at most nine rules, and none when no feed is requested |
| Server.GeneratedRule | backend/server.py:129-136 | a generated rule is "auto_gen_" plus the token, named after the upload, with the AI's fixed family, severity and source |
| Server.Decide | backend/server.py:95-145 | YARA matches give MALICIOUS at 100 listing the matches; otherwise the AI's verdict and confidence are used; a rule is generated exactly when the AI says malicious and returns non-empty content, and the insight then says so |
| Server.MatchesOverrideAi | backend/server.py:99-102 | with a YARA match the AI's answers make no difference |
| Server.ScanFile | backend/server.py:84-165 | an exception gives a 500 carrying its message and stores nothing; otherwise the result records the upload and the verdict, with the type defaulting to "unknown", and exactly the rule the verdict mints is stored and written to its id + ".yar" |
| Server.NamesExact | backend/server.py:63-64 | a name is known exactly when some stored rule carries it |
| Server.Fresh | backend/server.py:61-74 | the reference for a sync inserts no more rules than were fetched |
| Server.FreshNamesNewAndDistinct | backend/server.py:61-69 | inserted names were not stored before and are pairwise distinct |
| Server.FreshCoversFetched | backend/server.py:61-69 | after a sync every fetched name was known before or is carried by an inserted rule |
| Server.FreshFromFetched | backend/server.py:61-69 | every inserted rule is one of the fetched rules |
| Server.BazaarRuleStoredOnce | backend/server.py:63-64 | once a MalwareBazaar rule is stored, no later MalwareBazaar rule is inserted, whatever its hashes |
| Server.Stored | backend/server.py:66-69 | the stored record keeps every field of the fetched rule |
| Server.SyncFeeds | backend/server.py:55-76 | the sync appends exactly the reference's rules, writes their files, counts them, and leaves every fetched name stored |
| Server.InsertIfNew | backend/server.py:62-74 | a fetched rule is inserted, written and counted exactly when its name is new |
| Server.SyncFeedsTask | backend/server.py:55-58 | one background sync adds at most nine rules |
| Server.SortByDate | backend/server.py:169 | the rules are rearranged newest first, none lost or added |
| Server.GetRules | backend/server.py:167-177 | the listing is the 100 newest rules, newest first, and no rule left out is newer than a listed one |
| Server.PrefixIsNewest | backend/server.py:169-170 | the first n rules of a newest-first list are at least as new as the rest |
| Server.PyRepr | backend/server.py:182 | a string's repr is enclosed in the quote Python picks |
| Server.UnescapeEscape | backend/server.py:182 | the repr escaping loses no character |
| Server.PyListRepr | backend/server.py:182 | a list's repr is bracketed |
| Server.TriggerSync | backend/server.py:179-182 | the trigger defers a sync of exactly the requested feeds and answers "Rule sync started for [" plus the list |
| Server.PlainRepr | backend/server.py:182 | a string without quotes, backslashes or control escapes is shown in single quotes unchanged |
| Server.PlainTriggerMessage | backend/server.py:179-182 | for plain feed names the answer lists each name in single quotes, separated by ", " |
| ThreatFeeds.ProcessSample | backend/services/threat_feeds.py:34-42 | a processed sample keeps the hash, file type, file name, signature and first-seen date, defaults missing tags to [] and is tagged "malwarebazaar" |
| ThreatFeeds.FetchMalwareBazaarSamples | backend/services/threat_feeds.py:17-68 | success exactly for a 200 answer with status "ok", giving the first 20 processed samples; any other answer fails with "HTTP " plus its code, and an exception with its message |
| ThreatFeeds.ProcessPulse | backend/services/threat_feeds.py:89-109 | a processed pulse keeps its id, name and creation date and at most its first ten indicators, each processed; a missing description or adversary becomes "" and a missing tag, country, family or attack list becomes [] |
| ThreatFeeds.FetchOtxPulses | backend/services/threat_feeds.py:70-135 | success exactly for a 200 answer, giving the first 20 processed pulses; failures carry the code or the exception message |
| ThreatFeeds.FetchAllFeeds | backend/services/threat_feeds.py:137-159 | the combined status is always "success" and the item total is the sum of both parts |
| ThreatFeeds.BothFailStillSuccess | backend/services/threat_feeds.py:152-158 | even when both feeds fail the combined status is "success", with no items |
| GithubSync.SyncedFilesExact | backend/services/github_sync.py:36-51 | a file is reported as synced exactly when it is one of the listed files and its fetch answered 200 |
| GithubSync.SyncedPlusErrors | backend/services/github_sync.py:36-59 | every file ends up either synced or with exactly one error line |
| GithubSync.SyncFiles | backend/services/github_sync.py:32-67 | the loop records each file either as synced or with one error line, without stopping at a failure; the summary equals the references and the status is "success" exactly when something synced |
| GithubSync.SyncRules | backend/services/github_sync.py:19-67 | the summary lists the synced files and one error line per other file, eight in all; the status is "success" exactly when something synced |
| GithubSync.AllRaisedScenario | backend/services/github_sync.py:56-67 | when every fetch raises nothing syncs and there are eight error lines |

## Left out

- Network, database, file system, `uuid`, clocks, logging and `asyncio.sleep` are not modelled. Their results are inputs, or they are dropped when they return nothing the logic uses.
- The YARA engine (`backend/services/yara_service.py`) is not part of this model. Its matches are an input, and writing a rule file is recorded as a (name, content) pair.
- The language-model client is not part of this model. Its replies are inputs, and the prompt text is not modelled.
- Case folding, `\w` and `\d` are ASCII-only. Whitespace covers Python's `isspace` characters below U+0100 only.
- Server.PyRepr: escapes backslash, the chosen quote, newline, carriage return and tab. It does not escape the other control characters or non-printable code points that Python's `repr` escapes.
- Server.TriggerSync: states the message's fixed prefix and the deferred sources. It gives the full text only for plain feed names (`Server.PlainTriggerMessage`).
- JSON `null` is treated like an absent key: both are `None`. In Python, `.get` with a default returns `None` for an explicit `null`, and slicing or iterating it then raises. The model does not reproduce that exception.
- IntelPage.Sources: the page's sources card (frontend/src/pages/ThreatIntelPage.jsx:177) builds a JavaScript `Set`, which counts `null` and `undefined` as two different values. The model has one `None` for both, so a catalog mixing the two counts one source fewer than the page shows.
- OTX pulse conversion in `feed_service.py` has no partial result. An exception half-way through the pulse loop would keep the rules built so far, while the model returns none.
- Pydantic type coercion and validation errors other than missing required fields are not modelled.
- `get_rules` converts ISO date strings back to datetimes, and the database breaks date ties in some order. The model keeps dates as integers, and Server.GetRules does not fix the order of rules with equal dates.
- Server.ScanFile: an exception is taken to happen before anything is stored. In the source, an exception after the rule file or rule record is written leaves them in place.
- Server.ScanFile: the uploaded file name is taken to be present.
- GithubSync.SyncRules: the outer handler (`backend/services/github_sync.py:69-77`) only catches exceptions raised outside the per-file handler, which the model has none of.
- Gemini.ParseConfidence: reads a digit run of any length. Since Python 3.11 and the matching security releases of 3.7 to 3.10, `int()` raises `ValueError` on more than 4300 decimal digits. In the source, that exception lands in the handler at `backend/services/gemini_service.py:97-99`, so such a reply becomes a failed analysis with confidence 0. The model (ParseReply, AnalyzeFile, ConfidenceRoundTrip) reads the number instead.
- Server.SyncFeeds: one run at a time; overlapping background syncs can store a name twice. The source awaits between the name lookup (`backend/server.py:63`) and the insert (`backend/server.py:69`), and the page ends its syncing state as soon as the trigger answers, so a second click can start a second run that interleaves with the first. The de-duplication lemmas (Server.FreshNamesNewAndDistinct, Server.FreshCoversFetched, Server.BazaarRuleStoredOnce) hold for one run.
- Gemini.ExtractStrings: requires a minimum length of at least 1. The source always uses 4.
- Truncating the strings preview to 4000 or 3000 characters is part of the prompt, which is not modelled.
- The scan page treats the request as the only thing that can fail. An exception raised after the interval is cleared but before the result is stored is not modelled.
- Presentational components, the other pages, `backend/models/schemas.py`, the `/stats` and root endpoints, and float, file-size and locale date formatting are not part of this model.

=== FILE: feed_service.dfy ===
/** The feed-to-rule transformers (backend/services/feed_service.py): which
    feeds a sync pulls and in what order, and how each feed's HTTP answer
    becomes rule records. Every HTTP call is an input outcome. */
module FeedService {
  import opened Wrappers
  import opened Http
  import Text
  import Select

  /** The record each fetcher yields (all six keys always present). */
  datatype FeedRule = FeedRule(
    ruleId: string,
    name: string,
    content: string,
    source: string,
    family: string,
    severity: string)

  // ------------------------------------------------------------ ordering

  /** The rules of one sync: GitHub's, then OTX's, then MalwareBazaar's,
      each group present exactly when its identifier is requested. */
  function FetchAll(sources: seq<string>, github: seq<FeedRule>, otx: seq<FeedRule>, bazaar: seq<FeedRule>)
    : (all: seq<FeedRule>)
    ensures |all| == (if "github" in sources then |github| else 0)
                   + (if "otx" in sources then |otx| else 0)
                   + (if "malwarebazaar" in sources then |bazaar| else 0)
    ensures "github" in sources ==> all[..|github|] == github
    ensures "otx" in sources ==>
      var g := if "github" in sources then |github| else 0;
      all[g..g + |otx|] == otx
    ensures "malwarebazaar" in sources ==> all[|all| - |bazaar|..] == bazaar
  {
    (if "github" in sources then github else [])
    + (if "otx" in sources then otx else [])
    + (if "malwarebazaar" in sources then bazaar else [])
  }

  /** Only which known identifiers are requested matters: not their order,
      not repeats, not unknown identifiers. */
  lemma FetchAllOnlyMembership(s1: seq<string>, s2: seq<string>,
                               github: seq<FeedRule>, otx: seq<FeedRule>, bazaar: seq<FeedRule>)
    requires forall id :: id in ["github", "otx", "malwarebazaar"] ==> (id in s1 <==> id in s2)
    ensures FetchAll(s1, github, otx, bazaar) == FetchAll(s2, github, otx, bazaar)
  {
    assert "github" in s1 <==> "github" in s2;
    assert "otx" in s1 <==> "otx" in s2;
    assert "malwarebazaar" in s1 <==> "malwarebazaar" in s2;
  }

  // -------------------------------------------------------------- GitHub

  const GithubUrls: seq<string> := [
    "https://raw.githubusercontent.com/Yara-Rules/rules/master/malware/MALW_Eicar.yar",
    "https://raw.githubusercontent.com/Yara-Rules/rules/master/malware/MALW_Mimispoofer.yar",
    "https://raw.githubusercontent.com/ReversingLabs/reversinglabs-yara-rules/develop/yara/trojan/Win32.Trojan.Zeus.yar"
  ]

  /** End of the `\w` run that starts at `i`. */
  function WordEnd(t: string, i: nat): (j: nat)
    requires i <= |t|
    ensures i <= j <= |t|
    ensures forall k :: i <= k < j ==> Text.IsWordChar(t[k])
    ensures j == |t| || !Text.IsWordChar(t[j])
    decreases |t| - i
  {
    if i == |t| || !Text.IsWordChar(t[i]) then i else WordEnd(t, i + 1)
  }

  /** `rule\s+(\w+)` matches at `p`. */
  predicate RuleKeywordAt(t: string, p: nat) {
    && p + 5 <= |t| && t[p..p + 4] == "rule" && t[p + 4] in Text.Whitespace
    && var q := Text.SkipWhitespace(t, p + 4);
    q < |t| && Text.IsWordChar(t[q])
  }

  /** Leftmost match of the rule-name pattern at or after `i`. */
  function FirstRuleKeyword(t: string, i: nat): (r: Option<nat>)
    requires i <= |t|
    ensures r.Some? ==> i <= r.value && RuleKeywordAt(t, r.value)
    ensures r.Some? ==> forall p :: i <= p < r.value ==> !RuleKeywordAt(t, p)
    ensures r.None? ==> forall p :: i <= p <= |t| ==> !RuleKeywordAt(t, p)
    decreases |t| - i
  {
    if i == |t| then None
    else if RuleKeywordAt(t, i) then Some(i)
    else FirstRuleKeyword(t, i + 1)
  }

  /** `p` is the leftmost match of the rule-name pattern. */
  predicate LeftmostRuleKeyword(t: string, p: nat) {
    p <= |t| && RuleKeywordAt(t, p) && forall p' :: 0 <= p' < p ==> !RuleKeywordAt(t, p')
  }

  /** The identifier the rule-name match at `p` captures. */
  function RuleNameAt(t: string, p: nat): string
    requires RuleKeywordAt(t, p)
  {
    var q := Text.SkipWhitespace(t, p + 4);
    t[q..WordEnd(t, q)]
  }

  /** The last `/`-separated segment of a URL. */
  function LastSegment(url: string): (seg: string)
    ensures '/' !in seg
    ensures exists i :: 0 <= i <= |url| && seg == url[i..] && (i == 0 || url[i - 1] == '/')
  {
    var parts := Text.Split(url, '/');
    ghost var i := Text.LastPartStart(url, '/');
    parts[|parts| - 1]
  }

  /** The rule's name: the identifier after the first `rule` keyword, or
      else the URL's file name with every `.` turned into `_`. */
  function GithubRuleName(content: string, url: string): (name: string)
    ensures (exists p :: 0 <= p <= |content| && RuleKeywordAt(content, p)) ==>
      |name| > 0 && forall k :: 0 <= k < |name| ==> Text.IsWordChar(name[k])
    ensures forall p :: LeftmostRuleKeyword(content, p) ==> name == RuleNameAt(content, p)
    ensures (forall p :: 0 <= p <= |content| ==> !RuleKeywordAt(content, p)) ==>
      name == Text.ReplaceChar(LastSegment(url), '.', '_') && '.' !in name
  {
    match FirstRuleKeyword(content, 0)
    case Some(p) =>
      assert forall p' :: LeftmostRuleKeyword(content, p') ==> p' == p;
      RuleNameAt(content, p)
    case None =>
      var fallback := Text.ReplaceChar(LastSegment(url), '.', '_');
      assert forall k :: 0 <= k < |fallback| ==> fallback[k] != '.';
      fallback
  }

  function GithubRule(url: string, content: string): FeedRule {
    var name := GithubRuleName(content, url);
    FeedRule(name, name, content, "GitHub-Community", "General", "High")
  }

  /** One rule per URL that answered 200, in URL order; other URLs are
      skipped. */
  function GithubRulesFor(urls: seq<string>, fetch: string -> Outcome<string>): (rules: seq<FeedRule>)
    ensures |rules| <= |urls|
    ensures forall k :: 0 <= k < |rules| ==>
      rules[k].ruleId == rules[k].name && rules[k].source == "GitHub-Community"
      && rules[k].family == "General" && rules[k].severity == "High"
    ensures forall k :: 0 <= k < |rules| ==>
      exists j :: 0 <= j < |urls| && fetch(urls[j]) == Got(200, rules[k].content)
    ensures (forall j :: 0 <= j < |urls| ==> fetch(urls[j]).Got? && fetch(urls[j]).status == 200)
      ==> |rules| == |urls|
    decreases |urls|
  {
    if |urls| == 0 then []
    else
      var rest := GithubRulesFor(urls[1..], fetch);
      assert forall j :: 0 <= j < |urls| - 1 ==> urls[1..][j] == urls[j + 1];
      match fetch(urls[0])
      case Got(status, body) =>
        if status == 200 then [GithubRule(urls[0], body)] + rest else rest
      case Raised(_) => rest
  }

  /** A URL whose answer is a 200. */
  function Answered(fetch: string -> Outcome<string>): string -> bool {
    u => fetch(u).Got? && fetch(u).status == 200
  }

  /** The rule a URL's answer yields (used only for 200 answers). */
  function RuleOf(fetch: string -> Outcome<string>): string -> FeedRule {
    u => GithubRule(u, if fetch(u).Got? then fetch(u).body else "")
  }

  /** The rules are exactly the URLs that answered 200, in URL order, each
      built from its own answer: `idx` is the list of those URLs'
      positions. */
  lemma {:induction false} GithubRulesForSelects(urls: seq<string>, fetch: string -> Outcome<string>)
    returns (idx: seq<nat>)
    ensures Select.Selects(idx, urls, Answered(fetch))
    ensures |GithubRulesFor(urls, fetch)| == |idx|
    ensures forall k :: 0 <= k < |idx| ==> GithubRulesFor(urls, fetch)[k] == RuleOf(fetch)(urls[idx[k]])
    decreases |urls|
  {
    if |urls| == 0 {
      idx := [];
    } else {
      var tail := GithubRulesForSelects(urls[1..], fetch);
      var keep := Answered(fetch)(urls[0]);
      Select.SelectsPrepend(urls, Answered(fetch), tail);
      idx := Select.Prepend(keep, tail);
      GithubRulesForUnfold(urls, fetch);
      Select.PrependAligned(urls, tail, keep, GithubRulesFor(urls, fetch),
                            GithubRulesFor(urls[1..], fetch), RuleOf(fetch));
    }
  }

  lemma GithubRulesForUnfold(urls: seq<string>, fetch: string -> Outcome<string>)
    requires |urls| > 0
    ensures GithubRulesFor(urls, fetch)
         == (if Answered(fetch)(urls[0]) then [RuleOf(fetch)(urls[0])] else [])
            + GithubRulesFor(urls[1..], fetch)
  {
  }

  /** The GitHub fetcher over its three configured URLs. */
  function GithubRules(fetch: string -> Outcome<string>): (rules: seq<FeedRule>)
    ensures |rules| <= 3
  {
    GithubRulesFor(GithubUrls, fetch)
  }

  /** A rule file's first declared rule names it. */
  lemma GithubNameFromContent()
    ensures GithubRuleName("rule Eicar {\n}", GithubUrls[0]) == "Eicar"
  {
    var t := "rule Eicar {\n}";
    assert t[..4] == "rule" && t[4] == ' ' && t[5] == 'E';
    assert Text.SkipWhitespace(t, 5) == 5;
    assert Text.SkipWhitespace(t, 4) == 5;
    assert RuleKeywordAt(t, 0);
    assert FirstRuleKeyword(t, 0) == Some(0);
    assert t[10] == ' ';
    assert WordEnd(t, 10) == 10;
    assert WordEnd(t, 5) == 10;
    assert t[5..10] == "Eicar";
  }

  /** Content with no rule declaration is named after the URL's file name. */
  lemma GithubNameFallback()
    ensures GithubRuleName("", "a/b.yar") == "b_yar"
  {
    var url := "a/b.yar";
    assert Text.IndexOf(url, '/') == 1;
    assert url[2..] == "b.yar";
    assert Text.IndexOf("b.yar", '/') == 5;
    assert Text.Split("b.yar", '/') == ["b.yar"];
    assert url[..1] == "a";
    assert Text.Split(url, '/') == ["a", "b.yar"];
    assert FirstRuleKeyword("", 0) == None;
  }

  // ----------------------------------------------------------------- OTX

  /** A pulse as the OTX API delivers it; `None` is an absent key. */
  datatype Pulse = Pulse(id: Option<string>, name: Option<string>, modified: Option<string>)

  /** The OTX response body: the `results` list, when present. */
  datatype OtxBody = OtxBody(results: Option<seq<Pulse>>)

  const MaxPulses := 5

  function PulseName(p: Pulse): string { p.name.GetOr("Unknown Pulse") }

  /** A rule text begins with its first part and ends with its last. */
  lemma ConcatEnds(a: string, b: string, c: string)
    ensures var s := a + b + c;
      && |a| <= |s| && s[..|a|] == a
      && |c| <= |s| && s[|s| - |c|..] == c
  {
    var s := a + b + c;
    assert s[..|a|] == a;
    assert s[|s| - |c|..] == c;
  }

  /** The condition every OTX rule ends with: it never matches. */
  const OtxCondition := "condition:" + ClauseBreak + "false\n}"

  /** A metadata-only rule for one pulse: named after the pulse, with a
      condition that never matches. */
  function OtxRule(p: Pulse): (r: FeedRule)
    ensures r.ruleId == "OTX_" + p.id.GetOr("") && r.name == PulseName(p)
    ensures r.source == "AlienVault-OTX" && r.family == "Threat-Pulse" && r.severity == "Medium"
    ensures var head := "\nrule OTX_" + p.id.GetOr("") + " {";
      |head| <= |r.content| && r.content[..|head|] == head
    ensures |OtxCondition| <= |r.content| && r.content[|r.content| - |OtxCondition|..] == OtxCondition
  {
    var id := p.id.GetOr("");
    var name := PulseName(p);
    var head := "\nrule OTX_" + id + " {";
    var meta := "\n    meta:\n        description = \"OTX Pulse: " + name
      + "\"\n        author = \"SentinelX OTX Sync\"\n        date = \"" + p.modified.GetOr("")
      + "\"\n    ";
    ConcatEnds(head, meta, OtxCondition);
    FeedRule("OTX_" + id, name, head + meta + OtxCondition, "AlienVault-OTX", "Threat-Pulse", "Medium")
  }

  /** Without a key (absent or empty) nothing is fetched; otherwise the first
      five pulses of a 200 answer become metadata-only rules, and any other
      answer yields nothing. */
  function OtxRules(key: Option<string>, response: Outcome<OtxBody>): (rules: seq<FeedRule>)
    ensures key.None? || key == Some("") ==> rules == []
    ensures |rules| <= MaxPulses
    ensures response.Raised? || (response.Got? && response.status != 200) ==> rules == []
    ensures response.Got? && response.status == 200 && key.Some? && key.value != "" ==>
      var pulses := response.body.results.GetOr([]);
      && |rules| == (if |pulses| < MaxPulses then |pulses| else MaxPulses)
      && forall k :: 0 <= k < |rules| ==>
           && rules[k].ruleId == "OTX_" + pulses[k].id.GetOr("")
           && rules[k].name == (if pulses[k].name.Some? then pulses[k].name.value else "Unknown Pulse")
           && rules[k].source == "AlienVault-OTX"
           && rules[k] == OtxRule(pulses[k])
  {
    if key.None? || key.value == "" then []
    else
      match response
      case Raised(_) => []
      case Got(status, body) =>
        if status != 200 then []
        else
          FirstPulseRules(body.results.GetOr([]))
  }

  /** One rule for each of the first five pulses, in order. */
  function FirstPulseRules(pulses: seq<Pulse>): (rules: seq<FeedRule>)
    ensures |rules| == (if |pulses| < MaxPulses then |pulses| else MaxPulses)
    ensures forall k :: 0 <= k < |rules| ==> rules[k] == OtxRule(pulses[k])
  {
    var first := if |pulses| < MaxPulses then pulses else pulses[..MaxPulses];
    seq(|first|, k requires 0 <= k < |first| => OtxRule(first[k]))
  }

  // ------------------------------------------------------- MalwareBazaar

  /** A sample record; only its SHA-256 is used. */
  datatype Sample = Sample(sha256Hash: Option<string>)

  /** The MalwareBazaar body: `query_status` and the `data` list. */
  datatype BazaarBody = BazaarBody(queryStatus: Option<string>, data: Option<seq<Sample>>)

  const MaxSamples := 20

  /** Every sample's hash entry, absent or not. */
  function HashesOf(samples: seq<Sample>): seq<Option<string>> {
    seq(|samples|, k requires 0 <= k < |samples| => samples[k].sha256Hash)
  }

  /** The non-empty hashes of the samples, in order. */
  function RecentHashes(samples: seq<Sample>): (hashes: seq<string>)
    ensures |hashes| <= |samples|
    ensures forall k :: 0 <= k < |hashes| ==> hashes[k] != ""
    ensures forall k :: 0 <= k < |hashes| ==> Some(hashes[k]) in HashesOf(samples)
    ensures forall k :: 0 <= k < |samples| && samples[k].sha256Hash.Some? && samples[k].sha256Hash.value != "" ==>
      samples[k].sha256Hash.value in hashes
    decreases |samples|
  {
    if |samples| == 0 then []
    else
      var rest := RecentHashes(samples[1..]);
      assert forall k :: 1 <= k < |samples| ==> samples[k] == samples[1..][k - 1];
      assert forall h :: h in HashesOf(samples[1..]) ==> h in HashesOf(samples) by {
        forall h | h in HashesOf(samples[1..]) ensures h in HashesOf(samples) {
          var j :| 0 <= j < |samples| - 1 && HashesOf(samples[1..])[j] == h;
          assert HashesOf(samples)[j + 1] == h;
        }
      }
      var s := samples[0];
      assert HashesOf(samples)[0] == s.sha256Hash;
      if s.sha256Hash.Some? && s.sha256Hash.value != "" then [s.sha256Hash.value] + rest else rest
  }

  /** A sample whose hash is present and non-empty. */
  predicate Hashed(s: Sample) {
    s.sha256Hash.Some? && s.sha256Hash.value != ""
  }

  /** The hashes are exactly those of the hashed samples, in sample order
      and with repeats kept: `idx` is the list of those samples' positions.
      Their count is the number in the MalwareBazaar rule's id. */
  lemma {:induction false} RecentHashesSelects(samples: seq<Sample>) returns (idx: seq<nat>)
    ensures Select.Selects(idx, samples, Hashed)
    ensures |RecentHashes(samples)| == |idx|
    ensures forall k :: 0 <= k < |idx| ==> RecentHashes(samples)[k] == samples[idx[k]].sha256Hash.value
    decreases |samples|
  {
    if |samples| == 0 {
      idx := [];
    } else {
      var tail := RecentHashesSelects(samples[1..]);
      Select.SelectsPrepend(samples, Hashed, tail);
      idx := Select.Prepend(Hashed(samples[0]), tail);
      var hashes := RecentHashes(samples);
      var d := if Hashed(samples[0]) then 1 else 0;
      assert hashes[d..] == RecentHashes(samples[1..]);
      forall k | d <= k < |idx|
        ensures hashes[k] == samples[idx[k]].sha256Hash.value
      {
        assert samples[idx[k]] == samples[1..][tail[k - d]];
      }
    }
  }

  function HashClause(h: string): string {
    "hash.sha256(0, filesize) == \"" + h + "\""
  }

  const ClauseBreak := "\n        "

  /** The condition text as built: each clause followed by " or", joined
      by a line break, then right-stripped of the characters ' ', 'o', 'r'. */
  function HashConditions(hashes: seq<string>): string {
    var withOr := seq(|hashes|, k requires 0 <= k < |hashes| => HashClause(hashes[k]) + " or");
    Text.TrimEnd(Text.Join(withOr, ClauseBreak), {' ', 'o', 'r'})
  }

  /** The character-set strip removes exactly the last " or": each clause
      ends in a quote, which the strip cannot pass. So the condition is the
      clauses joined by " or" and a line break. */
  lemma {:induction false} HashConditionsJoinWithOr(hashes: seq<string>)
    requires |hashes| > 0
    ensures HashConditions(hashes)
         == Text.Join(seq(|hashes|, k requires 0 <= k < |hashes| => HashClause(hashes[k])), " or" + ClauseBreak)
  {
    var clauses := seq(|hashes|, k requires 0 <= k < |hashes| => HashClause(hashes[k]));
    var withOr := seq(|hashes|, k requires 0 <= k < |hashes| => HashClause(hashes[k]) + " or");
    assert withOr == seq(|clauses|, k requires 0 <= k < |clauses| => clauses[k] + " or");
    Text.JoinAppendEach(clauses, " or", ClauseBreak);
    var joined := Text.Join(clauses, " or" + ClauseBreak);
    Text.JoinLastChar(clauses, " or" + ClauseBreak);
    Text.TrimEndStopsAt(joined, " or", {' ', 'o', 'r'});
  }

  /** The display name of every MalwareBazaar rule, whatever its hashes. */
  const BazaarRuleName := "MalwareBazaar Recent Hashes"

  /** The rule's meta block, between its header and its condition. */
  const BazaarMeta := "\n    meta:\n        description = \"Detects recent malware hashes from MalwareBazaar\""
    + "\n        author = \"SentinelX Feed\"\n        source = \"MalwareBazaar\"\n    "

  /** The one MalwareBazaar rule: its id counts the hashes, it imports the
      hash module, and its condition (the end of its content) is the
      clauses joined by " or" and a line break. */
  function BazaarRule(hashes: seq<string>): (r: FeedRule)
    ensures r.ruleId == "MalwareBazaar_Recent_" + Text.NatToString(|hashes|)
    ensures r.name == BazaarRuleName && r.source == "MalwareBazaar"
    ensures r.family == "Various" && r.severity == "Critical"
    ensures var head := "\nimport \"hash\"\n\nrule " + r.ruleId + " {";
      |head| <= |r.content| && r.content[..|head|] == head
    ensures var tail := "condition:" + ClauseBreak + HashConditions(hashes) + "\n}";
      |tail| <= |r.content| && r.content[|r.content| - |tail|..] == tail
    ensures |hashes| > 0 ==>
      var clauses := seq(|hashes|, k requires 0 <= k < |hashes| => HashClause(hashes[k]));
      var tail := "condition:" + ClauseBreak + Text.Join(clauses, " or" + ClauseBreak) + "\n}";
      |tail| <= |r.content| && r.content[|r.content| - |tail|..] == tail
  {
    var ruleName := "MalwareBazaar_Recent_" + Text.NatToString(|hashes|);
    var head := "\nimport \"hash\"\n\nrule " + ruleName + " {";
    var tail := "condition:" + ClauseBreak + HashConditions(hashes) + "\n}";
    var content := head + BazaarMeta + tail;
    ConcatEnds(head, BazaarMeta, tail);
    if |hashes| > 0 then
      HashConditionsJoinWithOr(hashes);
      FeedRule(ruleName, BazaarRuleName, content, "MalwareBazaar", "Various", "Critical")
    else
      FeedRule(ruleName, BazaarRuleName, content, "MalwareBazaar", "Various", "Critical")
  }

  /** At most one rule: only for a 200 answer whose `query_status` is "ok"
      and whose first 20 samples carry at least one hash. */
  function BazaarRules(response: Outcome<BazaarBody>): (rules: seq<FeedRule>)
    ensures |rules| <= 1
    ensures |rules| == 1 <==>
      && response.Got? && response.status == 200 && response.body.queryStatus == Some("ok")
      && |RecentHashes(FirstSamples(response.body))| > 0
    ensures |rules| == 1 ==>
      var n := |RecentHashes(FirstSamples(response.body))|;
      && 1 <= n <= MaxSamples
      && rules[0].ruleId == "MalwareBazaar_Recent_" + Text.NatToString(n)
      && rules[0].severity == "Critical" && rules[0].source == "MalwareBazaar"
      && rules[0].name == BazaarRuleName
    ensures |rules| == 1 ==> rules[0] == BazaarRule(RecentHashes(FirstSamples(response.body)))
  {
    match response
    case Raised(_) => []
    case Got(status, body) =>
      if status != 200 || body.queryStatus != Some("ok") then []
      else
        var hashes := RecentHashes(FirstSamples(body));
        if |hashes| == 0 then [] else [BazaarRule(hashes)]
  }

  function FirstSamples(body: BazaarBody): (samples: seq<Sample>)
    ensures |samples| <= MaxSamples
  {
    var all := body.data.GetOr([]);
    if |all| <= MaxSamples then all else all[..MaxSamples]
  }

  // ---------------------------------------------------------- whole sync

  /** Everything a sync needs from the outside: the GitHub answers per URL,
      the OTX key and answer, the MalwareBazaar answer. */
  datatype FeedInputs = FeedInputs(
    github: string -> Outcome<string>,
    otxKey: Option<string>,
    otx: Outcome<OtxBody>,
    bazaar: Outcome<BazaarBody>)

  /** The rules one sync collects for the requested sources. */
  function FetchAllFrom(sources: seq<string>, inputs: FeedInputs): seq<FeedRule> {
    FetchAll(sources, GithubRules(inputs.github), OtxRules(inputs.otxKey, inputs.otx),
             BazaarRules(inputs.bazaar))
  }

  /** A sync collects at most 3 + 5 + 1 rules, and none when no source is
      requested. */
  lemma FetchAllFromBound(sources: seq<string>, inputs: FeedInputs)
    ensures |FetchAllFrom(sources, inputs)| <= 9
    ensures sources == [] ==> FetchAllFrom(sources, inputs) == []
  {
    var g := GithubRules(inputs.github);
    var o := OtxRules(inputs.otxKey, inputs.otx);
    var b := BazaarRules(inputs.bazaar);
    assert |g| <= 3 && |o| <= 5 && |b| <= 1;
  }
}

=== FILE: gemini.dfy ===
/** The language-model client's deterministic parts
    (backend/services/gemini_service.py): printable-string extraction from
    the uploaded bytes, parsing of the model's STATUS / CONFIDENCE / REASON
    reply, and clean-up of a generated rule. The model call itself is an
    input: it either replied with some text or raised. */
module Gemini {
  import opened Wrappers
  import Text

  newtype byte = x: int | 0 <= x < 256

  /** The regex class `[ -~]`: bytes 0x20 to 0x7E. */
  predicate Printable(b: byte) { 0x20 <= b <= 0x7E }

  // ---------------------------------------------------- string extraction

  /** End of the printable run that starts at `i`. */
  function RunEnd(data: seq<byte>, i: nat): (j: nat)
    requires i <= |data|
    ensures i <= j <= |data|
    ensures forall k :: i <= k < j ==> Printable(data[k])
    ensures j == |data| || !Printable(data[j])
    decreases |data| - i
  {
    if i == |data| || !Printable(data[i]) then i else RunEnd(data, i + 1)
  }

  /** `[a, b)` is a printable run that cannot be extended either way. */
  ghost predicate MaximalRun(data: seq<byte>, a: int, b: int) {
    && 0 <= a < b <= |data|
    && (forall k :: a <= k < b ==> Printable(data[k]))
    && (a == 0 || !Printable(data[a - 1]))
    && (b == |data| || !Printable(data[b]))
  }

  /** The spans a left-to-right `findall` of `[ -~]{n,}` reports when it
      starts scanning at `i`, a position not inside a printable run. */
  function SpansFrom(data: seq<byte>, n: nat, i: nat): (spans: seq<(nat, nat)>)
    requires i <= |data|
    requires i == 0 || !Printable(data[i - 1])
    ensures forall k :: 0 <= k < |spans| ==>
      MaximalRun(data, spans[k].0, spans[k].1) && spans[k].1 - spans[k].0 >= n && i <= spans[k].0
    ensures forall k, l :: 0 <= k < l < |spans| ==> spans[k].1 < spans[l].0
    decreases |data| - i
  {
    if i == |data| then []
    else if !Printable(data[i]) then SpansFrom(data, n, i + 1)
    else
      var j := RunEnd(data, i);
      var rest := if j == |data| then [] else SpansFrom(data, n, j + 1);
      if j - i >= n then [(i, j)] + rest else rest
  }

  /** Every maximal printable run of at least `n` bytes is reported. */
  lemma {:induction false} SpansComplete(data: seq<byte>, n: nat, i: nat, a: nat, b: nat)
    requires i <= |data| && (i == 0 || !Printable(data[i - 1]))
    requires MaximalRun(data, a, b) && b - a >= n && i <= a
    ensures (a, b) in SpansFrom(data, n, i)
    decreases |data| - i
  {
    if !Printable(data[i]) {
      SpansComplete(data, n, i + 1, a, b);
    } else {
      var j := RunEnd(data, i);
      if a == i {
        RunEndOfMaximal(data, a, b, a);
      } else {
        assert !Printable(data[a - 1]);
        assert j <= a - 1;
        SpansComplete(data, n, j + 1, a, b);
      }
    }
  }

  /** The scan from any point inside a maximal run stops at its end. */
  lemma RunEndOfMaximal(data: seq<byte>, a: nat, b: nat, i: nat)
    requires MaximalRun(data, a, b) && a <= i <= b
    ensures RunEnd(data, i) == b
    decreases b - i
  {
    if i < b {
      RunEndOfMaximal(data, a, b, i + 1);
    }
  }

  function ByteText(bs: seq<byte>): (s: string)
    ensures |s| == |bs|
    ensures forall k :: 0 <= k < |bs| ==> s[k] as int == bs[k] as int
  {
    seq(|bs|, k requires 0 <= k < |bs| => (bs[k] as int) as char)
  }

  /** The printable runs of at least `n` bytes, in order, as text. */
  function Runs(data: seq<byte>, n: nat): (lines: seq<string>)
    ensures forall k :: 0 <= k < |lines| ==> |lines[k]| >= n && '\n' !in lines[k]
  {
    var spans := SpansFrom(data, n, 0);
    var lines := seq(|spans|, k requires 0 <= k < |spans| => ByteText(data[spans[k].0..spans[k].1]));
    assert forall k :: 0 <= k < |lines| ==> '\n' !in lines[k] by {
      forall k | 0 <= k < |lines| ensures '\n' !in lines[k] {
        var bs := data[spans[k].0..spans[k].1];
        assert forall m :: 0 <= m < |bs| ==> Printable(bs[m]);
      }
    }
    lines
  }

  const MaxStrings := 2000

  /** The strings preview: the first 2000 runs of at least `minLength`
      printable bytes, one per line. Splitting it on newlines gives back
      exactly those runs. */
  function ExtractStrings(data: seq<byte>, minLength: nat): (preview: string)
    requires minLength >= 1
    ensures |Runs(data, minLength)| == 0 ==> preview == ""
    ensures |Runs(data, minLength)| > 0 ==>
      var runs := Runs(data, minLength);
      Text.Split(preview, '\n') == if |runs| <= MaxStrings then runs else runs[..MaxStrings]
  {
    var runs := Runs(data, minLength);
    var kept := if |runs| <= MaxStrings then runs else runs[..MaxStrings];
    if |kept| == 0 then ""
    else
      Text.SplitJoin(kept, '\n');
      Text.Join(kept, "\n")
  }

  // ----------------------------------------------------- reply parsing

  /** The model call: a reply text, or an exception and its message. */
  datatype Reply = Replied(text: string) | Raised(message: string)

  /** `(is_malicious, reason, confidence)`. */
  datatype Analysis = Analysis(isMalicious: bool, reason: string, confidence: int)

  /** `word` (lower case) occurs at `p`, compared case-insensitively. */
  predicate LabelAt(t: string, p: nat, word: string) {
    p + |word| <= |t| && Text.Lower(t[p..p + |word|]) == word
  }

  /** End of the digit run that starts at `i`. */
  function DigitsEnd(t: string, i: nat): (j: nat)
    requires i <= |t|
    ensures i <= j <= |t|
    ensures forall k :: i <= k < j ==> Text.IsDigit(t[k])
    ensures j == |t| || !Text.IsDigit(t[j])
    decreases |t| - i
  {
    if i == |t| || !Text.IsDigit(t[i]) then i else DigitsEnd(t, i + 1)
  }

  /** The digit scan from inside a maximal digit run stops at its end. */
  lemma DigitsEndOfRun(t: string, i: nat, j: nat, k: nat)
    requires i <= k <= j <= |t|
    requires forall m :: i <= m < j ==> Text.IsDigit(t[m])
    requires j == |t| || !Text.IsDigit(t[j])
    ensures DigitsEnd(t, k) == j
    decreases j - k
  {
    if k < j {
      DigitsEndOfRun(t, i, j, k + 1);
    }
  }

  const ConfidenceLabel := "confidence:"
  const ReasonLabel := "reason:"

  /** `CONFIDENCE:\s*(\d+)` matches at `p` (case-insensitively). */
  predicate ConfidenceAt(t: string, p: nat) {
    LabelAt(t, p, ConfidenceLabel)
    && var q := Text.SkipWhitespace(t, p + |ConfidenceLabel|);
    q < |t| && Text.IsDigit(t[q])
  }

  /** Leftmost match of the confidence pattern at or after `i`. */
  function FirstConfidence(t: string, i: nat): (r: Option<nat>)
    requires i <= |t|
    ensures r.Some? ==> i <= r.value < |t| && ConfidenceAt(t, r.value)
    ensures r.Some? ==> forall p :: i <= p < r.value ==> !ConfidenceAt(t, p)
    ensures r.None? ==> forall p :: i <= p <= |t| ==> !ConfidenceAt(t, p)
    decreases |t| - i
  {
    if i == |t| then None
    else if ConfidenceAt(t, i) then Some(i)
    else FirstConfidence(t, i + 1)
  }

  /** Leftmost occurrence of `REASON:` (any case) at or after `i`. */
  function FirstReason(t: string, i: nat): (r: Option<nat>)
    requires i <= |t|
    ensures r.Some? ==> i <= r.value && LabelAt(t, r.value, ReasonLabel)
    ensures r.Some? ==> forall p :: i <= p < r.value ==> !LabelAt(t, p, ReasonLabel)
    ensures r.None? ==> forall p :: i <= p <= |t| ==> !LabelAt(t, p, ReasonLabel)
    decreases |t| - i
  {
    if i == |t| then None
    else if LabelAt(t, i, ReasonLabel) then Some(i)
    else FirstReason(t, i + 1)
  }

  /** `p` is the leftmost match of the confidence pattern. */
  predicate LeftmostConfidence(t: string, p: nat) {
    p <= |t| && ConfidenceAt(t, p) && forall p' :: 0 <= p' < p ==> !ConfidenceAt(t, p')
  }

  /** The number written by the digits of the confidence match at `p`. */
  function ConfidenceValueAt(t: string, p: nat): nat
    requires ConfidenceAt(t, p)
  {
    var q := Text.SkipWhitespace(t, p + |ConfidenceLabel|);
    Text.DigitsValue(t[q..DigitsEnd(t, q)])
  }

  /** The confidence: the digits after the first `CONFIDENCE:` that is
      followed (after optional whitespace) by a digit, or 0. Never
      negative, not capped at 100. */
  function ParseConfidence(t: string): (c: nat)
    ensures (forall p :: 0 <= p <= |t| ==> !ConfidenceAt(t, p)) ==> c == 0
    ensures forall p :: LeftmostConfidence(t, p) ==> c == ConfidenceValueAt(t, p)
  {
    match FirstConfidence(t, 0)
    case None => 0
    case Some(p) =>
      assert forall p' :: LeftmostConfidence(t, p') ==> p' == p;
      ConfidenceValueAt(t, p)
  }

  const NoReason := "No explanation provided."

  /** `p` is the leftmost `REASON:` label (any case). */
  predicate LeftmostReason(t: string, p: nat) {
    p <= |t| && LabelAt(t, p, ReasonLabel) && forall p' :: 0 <= p' < p ==> !LabelAt(t, p', ReasonLabel)
  }

  /** The reason written after the label at `p`: the rest of the reply,
      across newlines, stripped. */
  function ReasonAt(t: string, p: nat): string
    requires LabelAt(t, p, ReasonLabel)
  {
    Text.Strip(t[Text.SkipWhitespace(t, p + |ReasonLabel|)..])
  }

  /** The reason: everything after the first `REASON:` (any case, across
      newlines), stripped; a fixed sentence when there is none. */
  function ParseReason(t: string): (r: string)
    ensures (forall p :: 0 <= p <= |t| ==> !LabelAt(t, p, ReasonLabel)) ==> r == NoReason
    ensures forall p: nat :: LeftmostReason(t, p) ==> r == ReasonAt(t, p)
  {
    match FirstReason(t, 0)
    case None => NoReason
    case Some(p) =>
      assert forall p': nat :: LeftmostReason(t, p') ==> p' == p;
      ReasonAt(t, p)
  }

  const MaliciousMarker := "STATUS: MALICIOUS"

  /** Reads the verdict, confidence and reason out of a reply. */
  function ParseReply(t: string): (a: Analysis)
    ensures a.isMalicious <==> Text.Contains(Text.Upper(t), MaliciousMarker)
    ensures a.reason == ParseReason(t) && a.confidence == ParseConfidence(t)
    ensures a.confidence >= 0
  {
    Analysis(Text.Contains(Text.Upper(t), MaliciousMarker), ParseReason(t), ParseConfidence(t))
  }

  const UnavailableReason := "Gemini Analysis Unavailable (No Key)"

  /** The analysis result: a fixed "unavailable" answer without a client, a
      failed-analysis answer when the call raised, the parsed reply
      otherwise. */
  function AnalyzeFile(hasClient: bool, reply: Reply): (a: Analysis)
    ensures !hasClient ==> a == Analysis(false, UnavailableReason, 0)
    ensures hasClient && reply.Raised? ==> a == Analysis(false, "Analysis failed: " + reply.message, 0)
    ensures hasClient && reply.Replied? ==> a == ParseReply(reply.text)
    ensures a.confidence >= 0
  {
    if !hasClient then Analysis(false, UnavailableReason, 0)
    else
      match reply
      case Raised(m) => Analysis(false, "Analysis failed: " + m, 0)
      case Replied(t) => ParseReply(t)
  }

  /** A reply carrying `CONFIDENCE: <n>` first parses back to `n`. */
  lemma ConfidenceRoundTrip(n: nat, rest: string)
    requires |rest| == 0 || !Text.IsDigit(rest[0])
    ensures ParseConfidence("CONFIDENCE: " + Text.NatToString(n) + rest) == n
  {
    var ds := Text.NatToString(n);
    var t := "CONFIDENCE: " + ds + rest;
    assert t[..11] == "CONFIDENCE:";
    assert Text.Lower(t[0..11]) == ConfidenceLabel;
    assert t[11] == ' ' && t[12] == ds[0];
    assert Text.SkipWhitespace(t, 11) == 12;
    assert ConfidenceAt(t, 0);
    assert FirstConfidence(t, 0) == Some(0);
    assert forall k :: 12 <= k < 12 + |ds| ==> t[k] == ds[k - 12];
    assert |rest| == 0 || !Text.IsDigit(t[12 + |ds|]);
    DigitsEndOfRun(t, 12, 12 + |ds|, 12);
    assert t[12..12 + |ds|] == ds;
    Text.DigitsValueOfNatToString(n);
  }

  /** A reply with no `CONFIDENCE:` digits gives confidence 0, one with no
      `REASON:` gives the fixed sentence, and one without the marker is
      safe. */
  lemma MissingFieldsDefault(t: string)
    requires forall p :: 0 <= p <= |t| ==> !ConfidenceAt(t, p)
    requires forall p :: 0 <= p <= |t| ==> !LabelAt(t, p, ReasonLabel)
    requires !Text.Contains(Text.Upper(t), MaliciousMarker)
    ensures ParseReply(t) == Analysis(false, NoReason, 0)
  {
  }

  /** A bare "SAFE" reply is read as safe, with no reason and confidence 0. */
  lemma SafeReplyDefaults()
    ensures ParseReply("SAFE") == Analysis(false, NoReason, 0)
  {
    var t := "SAFE";
    assert forall p :: 0 <= p <= |t| ==> !ConfidenceAt(t, p);
    assert !Text.Contains(Text.Upper(t), MaliciousMarker) by {
      Text.ContainsNotLonger(Text.Upper(t), MaliciousMarker);
    }
    MissingFieldsDefault(t);
  }

  // ---------------------------------------------------- rule generation

  const Fence := "```"

  /** Removing every triple backtick leaves none behind: the removal never
      joins two shorter backtick runs into a new triple. The second and
      third conclusions carry the induction. */
  lemma {:induction false} FenceRemovalComplete(s: string)
    ensures !Text.Contains(Text.ReplaceAll(s, Fence, ""), Fence)
    ensures |s| > 0 && s[0] != '`' ==>
      var r := Text.ReplaceAll(s, Fence, "");
      |r| > 0 && r[0] == s[0]
    ensures !Text.StartsWith(s, "``") ==> !Text.StartsWith(Text.ReplaceAll(s, Fence, ""), "``")
    decreases |s|
  {
    var r := Text.ReplaceAll(s, Fence, "");
    if |s| < 3 {
      Text.ContainsNotLonger(s, Fence);
    } else if s[..3] == Fence {
      FenceRemovalComplete(s[3..]);
      assert r == Text.ReplaceAll(s[3..], Fence, "");
    } else {
      var t := s[1..];
      var rt := Text.ReplaceAll(t, Fence, "");
      FenceRemovalComplete(t);
      assert r == [s[0]] + rt;
      Text.ContainsCons(s[0], rt, Fence);
      if s[0] == '`' {
        assert !Text.StartsWith(t, "``") by {
          assert s[..3] == [s[0], t[0], t[1]];
        }
      }
    }
  }

  /** The rule text kept after generation: the reply stripped, every
      "```yara" removed, then every remaining "```" removed. No code fence
      survives. */
  function CleanRule(text: string): (r: string)
    ensures !Text.Contains(r, Fence)
  {
    var stripped := Text.Strip(text);
    var noYara := Text.ReplaceAll(stripped, "```yara", "");
    FenceRemovalComplete(noYara);
    Text.ReplaceAll(noYara, Fence, "")
  }

  /** The generated rule: none without a client or when the call raised,
      the cleaned reply otherwise (possibly empty). */
  function GenerateYaraRule(hasClient: bool, reply: Reply): (r: Option<string>)
    ensures r.Some? <==> hasClient && reply.Replied?
    ensures r.Some? ==> r.value == CleanRule(reply.text) && !Text.Contains(r.value, Fence)
  {
    if !hasClient then None
    else
      match reply
      case Raised(_) => None
      case Replied(t) => Some(CleanRule(t))
  }
}

=== FILE: github_sync.dfy ===
/** The GitHub rule-file syncer (backend/services/github_sync.py): it tries a
    fixed list of rule files one by one and summarises which were stored and
    which failed. Each file's fetch-and-write is an input outcome. */
module GithubSync {
  import opened Http
  import Text

  /** The rule files tried, in order. */
  const RuleFileNames: seq<string> := [
    "ransomware.yar", "trojan.yar", "backdoor.yar", "banker.yar",
    "cryptominer.yar", "apt.yar", "exploit.yar", "webshell.yar"
  ]

  /** The summary a sync returns. */
  datatype Summary = Summary(status: string, synced: seq<string>, totalSynced: nat, errors: seq<string>)

  /** A file counts as synced exactly when its fetch answered 200 (and the
      write did not raise, which a `Raised` outcome covers). */
  predicate Synced(o: Outcome<string>) {
    o.Got? && o.status == 200
  }

  /** The error line for a file that was not synced. */
  function ErrorLine(file: string, o: Outcome<string>): string
    requires !Synced(o)
  {
    match o
    case Got(status, _) => "Failed to fetch " + file + ": HTTP " + Text.NatToString(status)
    case Raised(message) => "Error syncing " + file + ": " + message
  }

  /** Reference: the synced files, in list order. */
  function SyncedFiles(files: seq<string>, fetch: string -> Outcome<string>): (ok: seq<string>)
    ensures |ok| <= |files|
    decreases |files|
  {
    if |files| == 0 then []
    else
      var rest := SyncedFiles(files[1..], fetch);
      if Synced(fetch(files[0])) then [files[0]] + rest else rest
  }

  /** A file is in the synced list exactly when it is one of the files and
      its fetch answered 200. */
  lemma {:induction false} SyncedFilesExact(files: seq<string>, fetch: string -> Outcome<string>, f: string)
    ensures f in SyncedFiles(files, fetch) <==> f in files && Synced(fetch(f))
    decreases |files|
  {
    if |files| > 0 {
      SyncedFilesExact(files[1..], fetch, f);
      assert files == [files[0]] + files[1..];
    }
  }

  /** Reference: one error line per file not synced, in list order. */
  function ErrorLines(files: seq<string>, fetch: string -> Outcome<string>): seq<string>
    decreases |files|
  {
    if |files| == 0 then []
    else
      var rest := ErrorLines(files[1..], fetch);
      if Synced(fetch(files[0])) then rest else [ErrorLine(files[0], fetch(files[0]))] + rest
  }

  /** Every file ends up in exactly one of the two lists. */
  lemma {:induction false} SyncedPlusErrors(files: seq<string>, fetch: string -> Outcome<string>)
    ensures |SyncedFiles(files, fetch)| + |ErrorLines(files, fetch)| == |files|
    decreases |files|
  {
    if |files| > 0 {
      SyncedPlusErrors(files[1..], fetch);
    }
  }

  /** The sync over a list of files: each file is fetched and stored in
      turn, and a failure is recorded without stopping the loop. */
  method SyncFiles(files: seq<string>, fetch: string -> Outcome<string>) returns (r: Summary)
    ensures r.synced == SyncedFiles(files, fetch)
    ensures r.errors == ErrorLines(files, fetch)
    ensures r.totalSynced == |r.synced|
    ensures |r.synced| + |r.errors| == |files|
    ensures r.status == "success" <==> |r.synced| > 0
    ensures r.status == "success" || r.status == "failed"
  {
    var synced: seq<string> := [];
    var errors: seq<string> := [];
    var i := 0;
    while i < |files|
      invariant 0 <= i <= |files|
      invariant synced + SyncedFiles(files[i..], fetch) == SyncedFiles(files, fetch)
      invariant errors + ErrorLines(files[i..], fetch) == ErrorLines(files, fetch)
    {
      var file := files[i];
      var o := fetch(file);
      Advance(files, fetch, i, synced, errors);
      if Synced(o) {
        synced := synced + [file];
      } else {
        errors := errors + [ErrorLine(file, o)];
      }
      i := i + 1;
    }
    Finish(files, synced, errors, fetch);
    r := Summary(if |synced| > 0 then "success" else "failed", synced, |synced|, errors);
  }

  /** The sync over the fixed list of eight rule files. */
  method SyncRules(fetch: string -> Outcome<string>) returns (r: Summary)
    ensures r.synced == SyncedFiles(RuleFileNames, fetch)
    ensures r.errors == ErrorLines(RuleFileNames, fetch)
    ensures r.totalSynced == |r.synced| <= 8
    ensures |r.synced| + |r.errors| == 8
    ensures r.status == "success" <==> |r.synced| > 0
  {
    r := SyncFiles(RuleFileNames, fetch);
  }

  /** The accumulated lists advanced by one file still complete to the
      references. */
  lemma Advance(files: seq<string>, fetch: string -> Outcome<string>, i: nat,
                synced: seq<string>, errors: seq<string>)
    requires i < |files|
    requires synced + SyncedFiles(files[i..], fetch) == SyncedFiles(files, fetch)
    requires errors + ErrorLines(files[i..], fetch) == ErrorLines(files, fetch)
    ensures Synced(fetch(files[i])) ==>
      && (synced + [files[i]]) + SyncedFiles(files[i + 1..], fetch) == SyncedFiles(files, fetch)
      && errors + ErrorLines(files[i + 1..], fetch) == ErrorLines(files, fetch)
    ensures !Synced(fetch(files[i])) ==>
      && synced + SyncedFiles(files[i + 1..], fetch) == SyncedFiles(files, fetch)
      && (errors + [ErrorLine(files[i], fetch(files[i]))]) + ErrorLines(files[i + 1..], fetch)
         == ErrorLines(files, fetch)
  {
    Unfold(files, fetch, i);
    if Synced(fetch(files[i])) {
      Regroup(synced, files[i], SyncedFiles(files[i + 1..], fetch));
    } else {
      Regroup(errors, ErrorLine(files[i], fetch(files[i])), ErrorLines(files[i + 1..], fetch));
    }
  }

  /** The references unfolded at one file. */
  lemma Unfold(files: seq<string>, fetch: string -> Outcome<string>, i: nat)
    requires i < |files|
    ensures SyncedFiles(files[i..], fetch)
         == (if Synced(fetch(files[i])) then [files[i]] else []) + SyncedFiles(files[i + 1..], fetch)
    ensures ErrorLines(files[i..], fetch)
         == (if Synced(fetch(files[i])) then [] else [ErrorLine(files[i], fetch(files[i]))])
            + ErrorLines(files[i + 1..], fetch)
  {
    assert files[i..][0] == files[i];
    assert files[i..][1..] == files[i + 1..];
  }

  lemma Regroup(acc: seq<string>, x: string, rest: seq<string>)
    ensures (acc + [x]) + rest == acc + ([x] + rest)
  {
  }

  /** At the end of the list the accumulated lists are the references. */
  lemma Finish(files: seq<string>, synced: seq<string>, errors: seq<string>, fetch: string -> Outcome<string>)
    requires synced + SyncedFiles(files[|files|..], fetch) == SyncedFiles(files, fetch)
    requires errors + ErrorLines(files[|files|..], fetch) == ErrorLines(files, fetch)
    ensures synced == SyncedFiles(files, fetch) && errors == ErrorLines(files, fetch)
    ensures |synced| + |errors| == |files|
  {
    assert files[|files|..] == [];
    SyncedPlusErrors(files, fetch);
  }

  /** When every fetch raises, the sync fails with eight error lines. */
  lemma AllRaisedScenario(fetch: string -> Outcome<string>)
    requires forall f :: fetch(f).Raised?
    ensures SyncedFiles(RuleFileNames, fetch) == []
    ensures |ErrorLines(RuleFileNames, fetch)| == 8
  {
    var ok := SyncedFiles(RuleFileNames, fetch);
    if |ok| > 0 {
      SyncedFilesExact(RuleFileNames, fetch, ok[0]);
      assert false;
    }
    SyncedPlusErrors(RuleFileNames, fetch);
  }
}

=== FILE: intel_page.dfy ===
/** The rules page controller (frontend/src/pages/ThreatIntelPage.jsx): the
    catalog search, the severity badge and statistics cards, the sync-source
    selection, rule export, and a state record driven by a total step
    function. HTTP calls and the delayed re-fetch are effects the step
    emits; their settlement comes back as events. */
module IntelPage {
  import opened Wrappers
  import opened Toasts
  import Text
  import Select

  /** A rule as the listing endpoint delivers it; `None` is an absent key. */
  datatype Rule = Rule(
    id: Option<string>,
    ruleId: Option<string>,
    name: string,
    family: Option<string>,
    severity: Option<string>,
    source: Option<string>,
    content: string,
    dateAdded: Option<string>)

  // --------------------------------------------------------------- search

  /** An optional field takes part in the search only when it is a
      non-empty string (JavaScript truthiness). */
  predicate FieldMatches(field: Option<string>, term: string) {
    field.Some? && field.value != "" && Text.Contains(Text.Lower(field.value), Text.Lower(term))
  }

  /** Case-insensitive substring match on the name, the family or the
      `rule_id`; the record's `id` is not searched. */
  predicate Matches(r: Rule, term: string) {
    || Text.Contains(Text.Lower(r.name), Text.Lower(term))
    || FieldMatches(r.family, term)
    || FieldMatches(r.ruleId, term)
  }

  /** `a` can be obtained from `b` by deleting elements. */
  predicate IsSubsequence<T(==)>(a: seq<T>, b: seq<T>)
    decreases |b|
  {
    |a| == 0 || (|b| > 0 && ((a[0] == b[0] && IsSubsequence(a[1..], b[1..])) || IsSubsequence(a, b[1..])))
  }

  /** The rules the table shows for a search term: exactly the matching
      rules, in catalog order. */
  function Filter(rules: seq<Rule>, term: string): (out: seq<Rule>)
    ensures IsSubsequence(out, rules)
    ensures forall i :: 0 <= i < |out| ==> Matches(out[i], term)
    ensures forall i :: 0 <= i < |rules| && Matches(rules[i], term) ==> rules[i] in out
    decreases |rules|
  {
    if |rules| == 0 then []
    else if Matches(rules[0], term) then [rules[0]] + Filter(rules[1..], term)
    else Filter(rules[1..], term)
  }

  /** The rules that match a term. */
  function MatchesTerm(term: string): Rule -> bool {
    r => Matches(r, term)
  }

  /** The table holds the matching rules and nothing else, each as often as
      it occurs in the catalog and in catalog order: `idx` is the list of
      the matching rules' positions. */
  lemma {:induction false} FilterSelects(rules: seq<Rule>, term: string) returns (idx: seq<nat>)
    ensures Select.Selects(idx, rules, MatchesTerm(term))
    ensures |Filter(rules, term)| == |idx|
    ensures forall k :: 0 <= k < |idx| ==> Filter(rules, term)[k] == rules[idx[k]]
    decreases |rules|
  {
    if |rules| == 0 {
      idx := [];
    } else {
      var tail := FilterSelects(rules[1..], term);
      var keep := MatchesTerm(term)(rules[0]);
      Select.SelectsPrepend(rules, MatchesTerm(term), tail);
      idx := Select.Prepend(keep, tail);
      Select.PrependAligned(rules, tail, keep, Filter(rules, term), Filter(rules[1..], term), (r: Rule) => r);
    }
  }

  /** An empty search shows the whole catalog in order. */
  lemma {:induction false} FilterEmptyTerm(rules: seq<Rule>)
    ensures Filter(rules, "") == rules
    decreases |rules|
  {
    if |rules| > 0 {
      Text.ContainsEmpty(Text.Lower(rules[0].name));
      assert Matches(rules[0], "");
      FilterEmptyTerm(rules[1..]);
      assert rules == [rules[0]] + rules[1..];
    }
  }

  // ------------------------------------------------------------- severity

  datatype Badge = Destructive | DefaultBadge | Secondary | Outline

  /** Badge variant for a severity, compared case-insensitively; an absent
      or unrecognised severity gets the outline badge. */
  function SeverityBadge(severity: Option<string>): (b: Badge)
    ensures b == Destructive <==> severity.Some? && Text.Lower(severity.value) == "critical"
    ensures b == DefaultBadge <==> severity.Some? && Text.Lower(severity.value) == "high"
    ensures b == Secondary <==> severity.Some? && Text.Lower(severity.value) == "medium"
    ensures severity.None? ==> b == Outline
  {
    if severity.None? then Outline
    else
      var s := Text.Lower(severity.value);
      if s == "critical" then Destructive
      else if s == "high" then DefaultBadge
      else if s == "medium" then Secondary
      else Outline
  }

  /** The severity, lower-cased, equals `tier`. */
  predicate HasTier(r: Rule, tier: string) {
    r.severity.Some? && Text.Lower(r.severity.value) == tier
  }

  /** How many rules have a severity equal to `tier` once lower-cased. */
  function CountTier(rules: seq<Rule>, tier: string): (n: nat)
    ensures n <= |rules|
    decreases |rules|
  {
    if |rules| == 0 then 0
    else (if HasTier(rules[0], tier) then 1 else 0) + CountTier(rules[1..], tier)
  }

  function InTier(tier: string): Rule -> bool {
    r => HasTier(r, tier)
  }

  /** The count is the number of positions whose severity is in the tier:
      `idx` lists exactly those positions. */
  lemma {:induction false} CountTierSelects(rules: seq<Rule>, tier: string) returns (idx: seq<nat>)
    ensures Select.Selects(idx, rules, InTier(tier))
    ensures CountTier(rules, tier) == |idx|
    decreases |rules|
  {
    if |rules| == 0 {
      idx := [];
    } else {
      var tail := CountTierSelects(rules[1..], tier);
      Select.SelectsPrepend(rules, InTier(tier), tail);
      idx := Select.Prepend(InTier(tier)(rules[0]), tail);
    }
  }

  /** No rule is both critical and high, so the two cards never add up to
      more than the total. */
  lemma {:induction false} CriticalPlusHighAtMostTotal(rules: seq<Rule>)
    ensures CountTier(rules, "critical") + CountTier(rules, "high") <= |rules|
    decreases |rules|
  {
    if |rules| > 0 {
      CriticalPlusHighAtMostTotal(rules[1..]);
    }
  }

  /** Two severities that differ only in ASCII letter case. */
  predicate SameTier(a: Option<string>, b: Option<string>) {
    (a.None? && b.None?) || (a.Some? && b.Some? && Text.Lower(a.value) == Text.Lower(b.value))
  }

  /** The severity cards do not depend on letter case. */
  lemma {:induction false} CountTierIgnoresCase(rules: seq<Rule>, other: seq<Rule>, tier: string)
    requires |rules| == |other|
    requires forall i :: 0 <= i < |rules| ==> SameTier(rules[i].severity, other[i].severity)
    ensures CountTier(rules, tier) == CountTier(other, tier)
    decreases |rules|
  {
    if |rules| > 0 {
      CountTierIgnoresCase(rules[1..], other[1..], tier);
    }
  }

  /** The distinct `source` values (an absent source counts as one value). */
  function Sources(rules: seq<Rule>): (out: set<Option<string>>)
    ensures |out| <= |rules|
    ensures |rules| > 0 ==> |out| >= 1
    ensures forall i :: 0 <= i < |rules| ==> rules[i].source in out
    ensures forall s :: s in out ==> exists i :: 0 <= i < |rules| && rules[i].source == s
    decreases |rules|
  {
    if |rules| == 0 then {}
    else
      var rest := Sources(rules[1..]);
      var out := {rules[0].source} + rest;
      assert forall i :: 1 <= i < |rules| ==> rules[i] == rules[1..][i - 1];
      out
  }

  datatype Stats = Stats(total: nat, critical: nat, high: nat, sources: nat)

  /** The four statistics cards. */
  function ComputeStats(rules: seq<Rule>): (st: Stats)
    ensures st.total == |rules|
    ensures st.critical == CountTier(rules, "critical") && st.high == CountTier(rules, "high")
    ensures st.sources == |Sources(rules)|
    ensures st.critical + st.high <= st.total
    ensures st.sources <= st.total
    ensures st.total > 0 ==> st.sources >= 1
  {
    CriticalPlusHighAtMostTotal(rules);
    Stats(|rules|, CountTier(rules, "critical"), CountTier(rules, "high"), |Sources(rules)|)
  }

  // ---------------------------------------------------------------- export

  /** A downloaded file: its name and its text. */
  datatype Artifact = Artifact(fileName: string, content: string)

  /** Downloads the rule text verbatim under the rule's name with `.yar`
      appended, and confirms with a success toast. */
  function Export(rule: Rule): (r: (Artifact, Toast))
    ensures r.0.content == rule.content
    ensures |r.0.fileName| == |rule.name| + 4
    ensures r.0.fileName[..|rule.name|] == rule.name && r.0.fileName[|rule.name|..] == ".yar"
    ensures r.1 == SuccessToast("Downloaded " + r.0.fileName)
  {
    var fileName := rule.name + ".yar";
    (Artifact(fileName, rule.content), SuccessToast("Downloaded " + fileName))
  }

  // ------------------------------------------------------- sync selection

  /** The three feed check boxes. */
  datatype Selection = Selection(github: bool, otx: bool, malwarebazaar: bool)

  datatype Feed = GitHub | Otx | MalwareBazaar

  const FeedOrder: seq<string> := ["github", "otx", "malwarebazaar"]

  /** The enabled feed identifiers, in the fixed key order. */
  function ActiveSources(sel: Selection): (ids: seq<string>)
    ensures IsSubsequence(ids, FeedOrder)
    ensures "github" in ids <==> sel.github
    ensures "otx" in ids <==> sel.otx
    ensures "malwarebazaar" in ids <==> sel.malwarebazaar
    ensures |ids| == 0 <==> !sel.github && !sel.otx && !sel.malwarebazaar
  {
    var ids := (if sel.github then ["github"] else [])
      + (if sel.otx then ["otx"] else [])
      + (if sel.malwarebazaar then ["malwarebazaar"] else []);
    assert IsSubsequence(ids, FeedOrder) by {
      var tail2 := if sel.malwarebazaar then ["malwarebazaar"] else [];
      assert IsSubsequence(tail2, FeedOrder[2..]);
      var tail1 := (if sel.otx then ["otx"] else []) + tail2;
      assert IsSubsequence(tail1, FeedOrder[1..]);
    }
    ids
  }

  function Toggle(sel: Selection, f: Feed, on: bool): Selection {
    match f
    case GitHub => sel.(github := on)
    case Otx => sel.(otx := on)
    case MalwareBazaar => sel.(malwarebazaar := on)
  }

  // ---------------------------------------------------------- controller

  datatype Effect =
    | GetRules
    | PostSync(sources: seq<string>)
    | ScheduleRefetch(delayMs: nat)
    | Notify(toast: Toast)

  datatype State = State(rules: seq<Rule>, syncing: bool, loading: bool, selection: Selection)

  datatype Event =
    | Mount                       // the page opens
    | RefetchFires                // the scheduled re-fetch timer expires
    | FetchOk(fetched: seq<Rule>)
    | FetchFail
    | ToggleFeed(feed: Feed, on: bool)
    | SyncClicked
    | TriggerOk
    | TriggerFail

  const Initial := State([], false, true, Selection(true, true, true))

  const RefetchDelayMs := 5000

  /** The page's transition function. Only a successful fetch changes the
      catalog, only a sync click posts, and only an accepted trigger
      schedules a re-fetch. */
  function Step(s: State, e: Event): (r: (State, seq<Effect>))
    ensures !e.FetchOk? ==> r.0.rules == s.rules
    ensures forall k :: 0 <= k < |r.1| && r.1[k].PostSync? ==>
      e.SyncClicked? && |r.1[k].sources| > 0 && r.1[k].sources == ActiveSources(s.selection)
    ensures forall k :: 0 <= k < |r.1| && r.1[k].ScheduleRefetch? ==>
      e.TriggerOk? && r.1[k].delayMs == 5000
    ensures forall k :: 0 <= k < |r.1| && r.1[k].GetRules? ==> e.Mount? || e.RefetchFires?
  {
    match e
    case Mount => (s.(loading := true), [GetRules])
    case RefetchFires => (s.(loading := true), [GetRules])
    case FetchOk(fetched) => (s.(rules := fetched, loading := false), [])
    case FetchFail => (s.(loading := false), [Notify(ErrorToast("Failed to load rules."))])
    case ToggleFeed(f, on) => (s.(selection := Toggle(s.selection, f, on)), [])
    case SyncClicked =>
      if s.syncing then (s, [])  // the button is disabled while syncing
      else
        var active := ActiveSources(s.selection);
        if |active| == 0 then
          (s, [Notify(ErrorToast("Please select at least one source to sync."))])
        else
          (s.(syncing := true),
           [Notify(InfoToast("Syncing from: " + Text.Join(active, ", ") + "...")), PostSync(active)])
    case TriggerOk =>
      if !s.syncing then (s, [])
      else
        (s.(syncing := false),
         [Notify(SuccessToast("Sync started in background.")), ScheduleRefetch(RefetchDelayMs)])
    case TriggerFail =>
      if !s.syncing then (s, [])
      else (s.(syncing := false), [Notify(ErrorToast("Sync trigger failed."))])
  }

  /** With no feed selected a sync click posts nothing, shows one error and
      leaves the page not syncing. */
  lemma NoSourceNoPost(s: State)
    requires !s.syncing
    requires !s.selection.github && !s.selection.otx && !s.selection.malwarebazaar
    ensures Step(s, SyncClicked) == (s, [Notify(ErrorToast("Please select at least one source to sync."))])
    ensures !Step(s, SyncClicked).0.syncing
  {
  }

  /** With some feed selected a sync click posts exactly the enabled feeds
      and marks the page as syncing. */
  lemma SyncPostsActiveSources(s: State)
    requires !s.syncing
    requires s.selection.github || s.selection.otx || s.selection.malwarebazaar
    ensures var (t, effects) := Step(s, SyncClicked);
      && t.syncing && |effects| == 2 && effects[1] == PostSync(ActiveSources(s.selection))
  {
  }

  /** An accepted trigger schedules exactly one re-fetch, after 5000 ms. */
  lemma TriggerOkSchedulesOneRefetch(s: State)
    requires s.syncing
    ensures Step(s, TriggerOk).1 ==
      [Notify(SuccessToast("Sync started in background.")), ScheduleRefetch(5000)]
    ensures !Step(s, TriggerOk).0.syncing
  {
  }

  /** A failed trigger shows one error, schedules nothing and does not
      retry. */
  lemma TriggerFailNoRetry(s: State)
    requires s.syncing
    ensures Step(s, TriggerFail) == (s.(syncing := false), [Notify(ErrorToast("Sync trigger failed."))])
  {
  }

  /** A successful fetch replaces the catalog wholesale; a failed one keeps
      it. Either way loading ends. */
  lemma FetchSettles(s: State, fetched: seq<Rule>)
    ensures Step(s, FetchOk(fetched)).0.rules == fetched && !Step(s, FetchOk(fetched)).0.loading
    ensures Step(s, FetchFail).0.rules == s.rules && !Step(s, FetchFail).0.loading
  {
  }

  /** Syncing GitHub alone: the trigger posts `["github"]`, and when the
      scheduled timer fires the catalog is requested exactly once. */
  lemma GithubSyncScenario()
    ensures
      var s0 := Initial.(loading := false, selection := Selection(true, false, false));
      var (s1, e1) := Step(s0, SyncClicked);
      var (s2, e2) := Step(s1, TriggerOk);
      var (s3, e3) := Step(s2, RefetchFires);
      && e1[1] == PostSync(["github"])
      && e2[1] == ScheduleRefetch(5000)
      && e3 == [GetRules] && s3.loading && !s3.syncing
  {
  }
}

=== FILE: models.dfy ===
/** The backend's persisted records (backend/models.py): a signature rule, a
    scan result and a sync request, with the defaults the record classes fill
    in. The `id` and timestamp default factories (a random UUID and the
    current time) are inputs here. */
module Models {
  import opened Wrappers

  /** A stored YARA rule. */
  datatype YaraRule = YaraRule(
    id: string,
    ruleId: string,
    name: string,
    family: string,
    severity: string,
    content: string,
    source: string,
    dateAdded: int)

  /** The keyword arguments handed to the rule record; `None` means the
      argument was not supplied. */
  datatype RuleFields = RuleFields(
    ruleId: Option<string>,
    name: Option<string>,
    family: Option<string>,
    severity: Option<string>,
    content: Option<string>,
    source: Option<string>)

  const DefaultFamily := "Unknown"
  const DefaultSeverity := "Medium"

  /** Names of the required fields that were not supplied, in declaration
      order; this is what the validation error lists. */
  function MissingRuleFields(f: RuleFields): seq<string> {
    (if f.ruleId.None? then ["rule_id"] else [])
    + (if f.name.None? then ["name"] else [])
    + (if f.content.None? then ["content"] else [])
    + (if f.source.None? then ["source"] else [])
  }

  /** Builds a rule record, or reports the missing required fields.
      `family` and `severity` fall back to their defaults; every supplied
      value is kept as given. */
  function NewYaraRule(f: RuleFields, freshId: string, now: int): (r: Result<YaraRule, seq<string>>)
    ensures r.Success? <==> f.ruleId.Some? && f.name.Some? && f.content.Some? && f.source.Some?
    ensures r.Failure? ==> |r.error| > 0
    ensures r.Failure? ==> forall k :: 0 <= k < |r.error| ==> r.error[k] in {"rule_id", "name", "content", "source"}
    ensures r.Failure? ==> (f.ruleId.None? <==> "rule_id" in r.error)
    ensures r.Failure? ==> (f.name.None? <==> "name" in r.error)
    ensures r.Failure? ==> (f.content.None? <==> "content" in r.error)
    ensures r.Failure? ==> (f.source.None? <==> "source" in r.error)
    ensures r.Success? ==>
      && r.value.ruleId == f.ruleId.value
      && r.value.name == f.name.value
      && r.value.content == f.content.value
      && r.value.source == f.source.value
      && r.value.family == (if f.family.Some? then f.family.value else DefaultFamily)
      && r.value.severity == (if f.severity.Some? then f.severity.value else DefaultSeverity)
      && r.value.id == freshId
      && r.value.dateAdded == now
  {
    var missing := MissingRuleFields(f);
    if |missing| > 0 then
      Failure(missing)
    else
      Success(YaraRule(freshId, f.ruleId.value, f.name.value, f.family.GetOr(DefaultFamily),
                       f.severity.GetOr(DefaultSeverity), f.content.value, f.source.value, now))
  }

  /** A scan result as the backend returns it. `status` is the verdict
      string ("MALICIOUS" or "SAFE"). */
  datatype ScanResult = ScanResult(
    id: string,
    filename: string,
    filesize: nat,
    filetype: string,
    status: string,
    confidence: int,
    detectedRules: seq<string>,
    aiInsight: string,
    timestamp: int)

  /** Builds a scan result; an omitted rule list becomes empty and an omitted
      insight becomes the empty string. */
  function NewScanResult(
    filename: string, filesize: nat, filetype: string, status: string, confidence: int,
    detectedRules: Option<seq<string>>, aiInsight: Option<string>,
    freshId: string, now: int): (r: ScanResult)
    ensures detectedRules.None? ==> r.detectedRules == []
    ensures detectedRules.Some? ==> r.detectedRules == detectedRules.value
    ensures aiInsight.None? ==> r.aiInsight == ""
    ensures aiInsight.Some? ==> r.aiInsight == aiInsight.value
    ensures r.filename == filename && r.filesize == filesize && r.filetype == filetype
    ensures r.status == status && r.confidence == confidence
    ensures r.id == freshId && r.timestamp == now
  {
    ScanResult(freshId, filename, filesize, filetype, status, confidence,
               detectedRules.GetOr([]), aiInsight.GetOr(""), now)
  }

  /** The body of a sync trigger: which feeds to pull. */
  datatype SyncRequest = SyncRequest(sources: seq<string>)

  const AllSources: seq<string> := ["github", "otx", "malwarebazaar"]

  /** Parses a sync request body; an omitted list means every feed. */
  function NewSyncRequest(sources: Option<seq<string>>): (r: SyncRequest)
    ensures sources.None? ==> r.sources == ["github", "otx", "malwarebazaar"]
    ensures sources.Some? ==> r.sources == sources.value
  {
    SyncRequest(sources.GetOr(AllSources))
  }
}

=== FILE: scan_page.dfy ===
/** The scan page controller (frontend/src/pages/CommandCenterPage.jsx): a
    state record driven by a total step function over four events. Timers and
    the HTTP request are discrete events: `Tick` is one firing of one live
    progress interval, `RespOk`/`RespErr` settle the oldest in-flight scan
    request. The file input stays enabled while scanning, so several scans
    (and several intervals) can be live at once. */
module ScanPage {
  import opened Wrappers
  import opened Toasts

  /** The JSON body of a successful scan response; `None` is an absent key. */
  datatype Payload = Payload(
    status: Option<string>,
    confidence: Option<int>,
    detectedRules: Option<seq<string>>,
    filename: Option<string>,
    filesize: Option<int>,
    filetype: Option<string>,
    aiInsight: Option<string>)

  /** The result record the page renders. */
  datatype View = View(
    status: Option<string>,
    confidence: Option<int>,
    detectedStrings: seq<string>,
    fileName: Option<string>,
    fileSize: Option<int>,
    fileType: Option<string>,
    analysisTime: int,
    aiInsight: Option<string>)

  /** A rejected request: the backend's `detail` (when the response carried
      one) and the transport error's own message. */
  datatype RequestError = RequestError(detail: Option<string>, message: string)

  /** `timers` counts live progress intervals, `pending` the scan requests
      still in flight. */
  datatype State = State(
    file: Option<string>,
    progress: int,
    timers: nat,
    pending: nat,
    scanning: bool,
    stage: string,
    result: Option<View>)

  datatype Event =
    | Submit(fileName: string)
    | Tick
    | RespOk(payload: Payload, now: int)
    | RespErr(err: RequestError)

  const Initial := State(None, 0, 0, 0, false, "", None)

  const AnalysisStage := "YARA Scanning & Gemini AI Analysis..."

  const SoftCeiling := 80

  /** One firing of the progress interval. */
  function TickValue(p: int): int {
    if p + 5 <= SoftCeiling then p + 5 else SoftCeiling
  }

  /** A tick never lowers progress that is at or below the ceiling and never
      lifts it above the ceiling. */
  lemma TickBounded(p: int)
    requires p <= SoftCeiling
    ensures p <= TickValue(p) <= SoftCeiling
  {
  }

  /** `n` successive ticks. */
  function Ticks(n: nat, p: int): int {
    if n == 0 then p else TickValue(Ticks(n - 1, p))
  }

  /** From at or below the ceiling, `n` ticks add `5 * n`, capped at 80. */
  lemma {:induction false} TicksClosedForm(n: nat, p: int)
    requires p <= SoftCeiling
    ensures Ticks(n, p) == if p + 5 * n <= SoftCeiling then p + 5 * n else SoftCeiling
  {
    if n > 0 {
      TicksClosedForm(n - 1, p);
    }
  }

  /** Starting from 20 the bar reaches the ceiling on the twelfth tick, not
      before. */
  lemma TwelveTicksToCeiling()
    ensures Ticks(11, 20) == 75 && Ticks(12, 20) == 80 && Ticks(13, 20) == 80
  {
    TicksClosedForm(11, 20);
    TicksClosedForm(12, 20);
    TicksClosedForm(13, 20);
  }

  /** Maps the response body to the result record: a missing rule list
      becomes empty, every other field is copied as received. */
  function Normalize(p: Payload, now: int): (v: View)
    ensures p.detectedRules.None? ==> v.detectedStrings == []
    ensures p.detectedRules.Some? ==> v.detectedStrings == p.detectedRules.value
    ensures v.status == p.status && v.confidence == p.confidence
    ensures v.fileName == p.filename && v.fileSize == p.filesize && v.fileType == p.filetype
    ensures v.aiInsight == p.aiInsight && v.analysisTime == now
  {
    View(p.status, p.confidence, p.detectedRules.GetOr([]), p.filename,
         p.filesize, p.filetype, now, p.aiInsight)
  }

  /** How an absent value prints inside a JavaScript template string. */
  function JsText(s: Option<string>): string {
    s.GetOr("undefined")
  }

  /** The notification after a successful response: an error toast naming
      the file exactly when the verdict is "MALICIOUS". */
  function Notify(p: Payload): (t: Toast)
    ensures t.ErrorToast? || t.SuccessToast?
    ensures t.ErrorToast? <==> p.status == Some("MALICIOUS")
    ensures t.ErrorToast? ==> t.text == "Threat Detected: " + JsText(p.filename)
    ensures t.SuccessToast? ==> t.text == "Scan Complete: File appears safe."
  {
    if p.status == Some("MALICIOUS") then ErrorToast("Threat Detected: " + JsText(p.filename))
    else SuccessToast("Scan Complete: File appears safe.")
  }

  /** The failure message: the backend's detail when present and non-empty,
      the transport message otherwise. */
  function FailureMessage(err: RequestError): (m: string)
    ensures err.detail.Some? && err.detail.value != "" ==> m == "Scan failed: " + err.detail.value
    ensures err.detail.None? || err.detail.value == "" ==> m == "Scan failed: " + err.message
  {
    "Scan failed: " + (if err.detail.Some? && err.detail.value != "" then err.detail.value else err.message)
  }

  /** What the page keeps true between events. */
  ghost predicate Inv(s: State) {
    && 0 <= s.progress <= 100
    && (s.scanning ==> s.progress <= SoftCeiling && s.pending > 0)
    && s.timers >= s.pending
  }

  /** The page's transition function; the second component is the toasts
      the event raises. */
  function Step(s: State, e: Event): (r: (State, seq<Toast>))
    ensures Inv(s) ==> Inv(r.0)
    ensures |r.1| <= 1
  {
    match e
    case Submit(f) =>
      (State(Some(f), 20, s.timers + 1, s.pending + 1, true, AnalysisStage, None), [])
    case Tick =>
      if s.timers == 0 then (s, [])
      else (s.(progress := TickValue(s.progress)), [])
    case RespOk(p, now) =>
      if s.pending == 0 || s.timers == 0 then (s, [])
      else
        (State(s.file, 100, s.timers - 1, s.pending - 1, false, "", Some(Normalize(p, now))),
         [Notify(p)])
    case RespErr(err) =>
      if s.pending == 0 then (s, [])
      else
        (s.(pending := s.pending - 1, scanning := false, stage := "", result := None),
         [ErrorToast(FailureMessage(err))])
  }

  /** Submitting clears the previous result, shows 20% and starts one more
      interval and one more request. */
  lemma SubmitResets(s: State, f: string)
    ensures var t := Step(s, Submit(f)).0;
      && t.result.None? && t.progress == 20 && t.scanning
      && t.timers == s.timers + 1 && t.pending == s.pending + 1 && t.file == Some(f)
  {
  }

  /** A success clears exactly its own interval, shows exactly 100%, stores
      the normalised result and raises the verdict's toast. */
  lemma SuccessFinalizes(s: State, p: Payload, now: int)
    requires Inv(s) && s.pending > 0
    ensures var (t, toasts) := Step(s, RespOk(p, now));
      && t.timers == s.timers - 1 && t.pending == s.pending - 1
      && t.progress == 100 && t.result == Some(Normalize(p, now))
      && toasts == [Notify(p)]
  {
  }

  /** A failure clears the result and raises one error toast, but leaves the
      interval running and the progress where it was. */
  lemma FailureLeavesTimer(s: State, err: RequestError)
    requires s.pending > 0
    ensures var (t, toasts) := Step(s, RespErr(err));
      && t.result.None? && t.timers == s.timers && t.progress == s.progress
      && toasts == [ErrorToast(FailureMessage(err))]
  {
  }

  /** After either outcome the page is no longer scanning and shows no
      stage. */
  lemma SettledIsIdle(s: State, e: Event)
    requires e.RespOk? || e.RespErr?
    requires s.pending > 0 && s.timers > 0
    ensures !Step(s, e).0.scanning && Step(s, e).0.stage == ""
  {
  }

  /** Consequence of the leaked interval: after a failed scan the bar keeps
      moving, and after a later successful scan the leaked interval pulls
      the displayed 100% back down to 80%. */
  lemma LeakedIntervalScenario(err: RequestError, p: Payload, now: int)
    ensures var s1 := Step(Step(Initial, Submit("a.exe")).0, RespErr(err)).0;
      && s1.timers == 1 && s1.pending == 0 && !s1.scanning
      && Step(s1, Tick).0.progress == 25
      && var s2 := Step(Step(s1, Submit("b.exe")).0, RespOk(p, now)).0;
      && s2.progress == 100 && s2.timers == 1
      && Step(s2, Tick).0.progress == 80
  {
  }

  /** A 1200-byte malicious file: the page ends with the verdict, its
      confidence, one detected rule and an error toast naming the file. */
  lemma MaliciousScanScenario(now: int)
    ensures
      var p := Payload(Some("MALICIOUS"), Some(87), Some(["Win32.Emotet"]), Some("a.exe"),
                       Some(1200), Some("application/x-msdownload"), Some("..."));
      var (s, toasts) := Step(Step(Initial, Submit("a.exe")).0, RespOk(p, now));
      && s.result.Some? && s.result.value.status == Some("MALICIOUS")
      && s.result.value.confidence == Some(87) && |s.result.value.detectedStrings| == 1
      && toasts == [ErrorToast("Threat Detected: a.exe")]
      && s.progress == 100 && s.timers == 0 && !s.scanning
  {
    var p := Payload(Some("MALICIOUS"), Some(87), Some(["Win32.Emotet"]), Some("a.exe"),
                     Some(1200), Some("application/x-msdownload"), Some("..."));
    assert Notify(p) == ErrorToast("Threat Detected: a.exe");
  }
}

=== FILE: select.dfy ===
/** Order-preserving selection: the reference shape shared by every
    filter in the model. A filter's output is pinned down exactly by the
    increasing list of input positions it keeps. */
module Select {

  /** `idx` lists, in increasing order, exactly the positions of `xs`
      whose element satisfies `p`. */
  ghost predicate Selects<T>(idx: seq<nat>, xs: seq<T>, p: T -> bool) {
    && (forall k :: 0 <= k < |idx| ==> idx[k] < |xs| && p(xs[idx[k]]))
    && (forall k, l :: 0 <= k < l < |idx| ==> idx[k] < idx[l])
    && (forall j :: 0 <= j < |xs| && p(xs[j]) ==> j in idx)
  }

  /** Every position moved one place to the right. */
  function Shift(idx: seq<nat>): (s: seq<nat>)
    ensures |s| == |idx|
    ensures forall k :: 0 <= k < |idx| ==> s[k] == idx[k] + 1
  {
    seq(|idx|, k requires 0 <= k < |idx| => idx[k] + 1)
  }

  /** The positions selected from `x + xs`, given those selected from
      `xs` and whether `x` itself is kept. */
  function Prepend(keep: bool, idx: seq<nat>): (s: seq<nat>)
    ensures |s| == |idx| + (if keep then 1 else 0)
    ensures keep ==> s[0] == 0
    ensures forall k :: |s| - |idx| <= k < |s| ==> s[k] == idx[k - (|s| - |idx|)] + 1
  {
    (if keep then [0] else []) + Shift(idx)
  }

  /** A selection from the tail extends to one from the whole sequence. */
  lemma SelectsPrepend<T>(xs: seq<T>, p: T -> bool, idx: seq<nat>)
    requires |xs| > 0 && Selects(idx, xs[1..], p)
    ensures Selects(Prepend(p(xs[0]), idx), xs, p)
  {
    PrependKeepsSatisfying(xs, p, idx);
    PrependIncreasing(p(xs[0]), idx);
    PrependCovers(xs, p, idx);
  }

  lemma PrependKeepsSatisfying<T>(xs: seq<T>, p: T -> bool, idx: seq<nat>)
    requires |xs| > 0
    requires forall k :: 0 <= k < |idx| ==> idx[k] < |xs[1..]| && p(xs[1..][idx[k]])
    ensures var s := Prepend(p(xs[0]), idx);
      forall k :: 0 <= k < |s| ==> s[k] < |xs| && p(xs[s[k]])
  {
    var s := Prepend(p(xs[0]), idx);
    var d := |s| - |idx|;
    forall k | d <= k < |s|
      ensures s[k] < |xs| && p(xs[s[k]])
    {
      assert xs[s[k]] == xs[1..][idx[k - d]];
    }
  }

  lemma PrependIncreasing(keep: bool, idx: seq<nat>)
    requires forall k, l :: 0 <= k < l < |idx| ==> idx[k] < idx[l]
    ensures var s := Prepend(keep, idx);
      forall k, l :: 0 <= k < l < |s| ==> s[k] < s[l]
  {
    var s := Prepend(keep, idx);
    var d := |s| - |idx|;
    forall k, l | d <= k < l < |s|
      ensures s[k] < s[l]
    {
      assert s[k] == idx[k - d] + 1 && s[l] == idx[l - d] + 1;
    }
  }

  lemma PrependCovers<T>(xs: seq<T>, p: T -> bool, idx: seq<nat>)
    requires |xs| > 0
    requires forall j :: 0 <= j < |xs[1..]| && p(xs[1..][j]) ==> j in idx
    ensures var s := Prepend(p(xs[0]), idx);
      forall j :: 0 <= j < |xs| && p(xs[j]) ==> j in s
  {
    var s := Prepend(p(xs[0]), idx);
    var d := |s| - |idx|;
    forall j | 0 <= j < |xs| && p(xs[j])
      ensures j in s
    {
      if j == 0 {
        assert s[0] == 0;
      } else {
        assert xs[1..][j - 1] == xs[j];
        var k :| 0 <= k < |idx| && idx[k] == j - 1;
        assert s[k + d] == j;
      }
    }
  }

  /** When `out` is `g` of the head (if kept) followed by `rest`, and
      `rest` lines up with `tail`, then `out` lines up with the extended
      position list. */
  lemma PrependAligned<T, U>(xs: seq<T>, tail: seq<nat>, keep: bool, out: seq<U>, rest: seq<U>, g: T -> U)
    requires |xs| > 0
    requires out == (if keep then [g(xs[0])] else []) + rest
    requires |rest| == |tail|
    requires forall k :: 0 <= k < |tail| ==> tail[k] < |xs| - 1 && rest[k] == g(xs[1..][tail[k]])
    ensures |out| == |Prepend(keep, tail)|
    ensures forall k :: 0 <= k < |out| ==> Prepend(keep, tail)[k] < |xs| && out[k] == g(xs[Prepend(keep, tail)[k]])
  {
    var idx := Prepend(keep, tail);
    var d := if keep then 1 else 0;
    forall k | d <= k < |out|
      ensures idx[k] < |xs| && out[k] == g(xs[idx[k]])
    {
      assert out[k] == rest[k - d];
      assert xs[idx[k]] == xs[1..][tail[k - d]];
    }
  }
}

=== FILE: server.dfy ===
/** The API's decision logic (backend/server.py): the scan verdict, the rule a
    malicious verdict may generate, the de-duplicating feed sync, the rule
    listing and the sync trigger. The YARA engine's matches, the AI's answers,
    random tokens, clocks and the database contents are inputs. */
module Server {
  import opened Wrappers
  import Text
  import Models
  import Gemini
  import FeedService
  import Http

  // ---------------------------------------------------------------- scan

  /** The verdict for one upload and the rule it generated, if any. */
  datatype Verdict = Verdict(status: string, confidence: int, insight: string, newRule: Option<Models.YaraRule>)

  /** What the second AI call and the random parts contribute when a new
      rule is minted. */
  datatype Minted = Minted(token: string, ruleRecordId: string, now: int)

  const Malicious := "MALICIOUS"
  const Safe := "SAFE"
  const GeneratedNote := " [New YARA Rule Generated]"

  /** The rule record built from generated content. */
  function GeneratedRule(filename: string, content: string, m: Minted): (r: Models.YaraRule)
    ensures r.ruleId == "auto_gen_" + m.token && r.name == "Auto-Generated: " + filename
    ensures r.family == "AI-Detected" && r.severity == "High" && r.source == "Gemini-AI"
    ensures r.content == content
  {
    var built := Models.NewYaraRule(
      Models.RuleFields(Some("auto_gen_" + m.token), Some("Auto-Generated: " + filename),
                        Some("AI-Detected"), Some("High"), Some(content), Some("Gemini-AI")),
      m.ruleRecordId, m.now);
    built.value
  }

  /** The verdict. YARA matches decide alone; otherwise the AI's analysis
      decides, and a malicious AI verdict with non-empty generated content
      yields a new rule. */
  function Decide(matches: seq<string>, filename: string, ai: Gemini.Analysis,
                  generated: Option<string>, m: Minted): (v: Verdict)
    ensures v.status == Malicious || v.status == Safe
    ensures |matches| > 0 ==>
      && v.status == Malicious && v.confidence == 100 && v.newRule.None?
      && v.insight == "Detected by YARA rules: " + Text.Join(matches, ", ")
    ensures |matches| == 0 ==> v.confidence == ai.confidence
    ensures |matches| == 0 ==> (v.status == Malicious <==> ai.isMalicious)
    ensures |matches| == 0 && !ai.isMalicious ==>
      v.insight == "Gemini Insight (SAFE): " + ai.reason && v.newRule.None?
    ensures v.newRule.Some? <==>
      |matches| == 0 && ai.isMalicious && generated.Some? && generated.value != ""
    ensures |matches| == 0 && ai.isMalicious ==>
      v.insight == "Gemini Insight: " + ai.reason + (if v.newRule.Some? then GeneratedNote else "")
    ensures v.newRule.Some? ==> v.newRule.value.content == generated.value
  {
    if |matches| > 0 then
      Verdict(Malicious, 100, "Detected by YARA rules: " + Text.Join(matches, ", "), None)
    else if ai.isMalicious then
      var insight := "Gemini Insight: " + ai.reason;
      if generated.Some? && generated.value != "" then
        Verdict(Malicious, ai.confidence, insight + GeneratedNote,
                Some(GeneratedRule(filename, generated.value, m)))
      else
        Verdict(Malicious, ai.confidence, insight, None)
    else
      Verdict(Safe, ai.confidence, "Gemini Insight (SAFE): " + ai.reason, None)
  }

  /** With a YARA match the AI's answers have no influence. */
  lemma MatchesOverrideAi(matches: seq<string>, filename: string,
                          a1: Gemini.Analysis, g1: Option<string>, m1: Minted,
                          a2: Gemini.Analysis, g2: Option<string>, m2: Minted)
    requires |matches| > 0
    ensures Decide(matches, filename, a1, g1, m1) == Decide(matches, filename, a2, g2, m2)
  {
  }

  /** The endpoint's answer: the stored result, or an HTTP error. */
  datatype Response = Ok(result: Models.ScanResult) | HttpError(code: nat, detail: string)

  /** Everything one scan writes: the response, the new rule record and the
      rule file (name and content) when a rule was generated. */
  datatype ScanEffects = ScanEffects(response: Response, inserted: Option<Models.YaraRule>,
                                     ruleFile: Option<(string, string)>)

  /** The upload endpoint. `fault` is an exception raised while handling the
      upload; it becomes a 500 answer carrying its message. */
  function ScanFile(filename: string, size: nat, contentType: Option<string>,
                    matches: seq<string>, ai: Gemini.Analysis, generated: Option<string>,
                    m: Minted, scanId: string, now: int, fault: Option<string>): (e: ScanEffects)
    ensures fault.Some? ==> e.response == HttpError(500, fault.value) && e.inserted.None?
    ensures fault.None? ==> e.response.Ok?
    ensures e.response.Ok? ==>
      var r := e.response.result;
      && r.filename == filename && r.filesize == size && r.detectedRules == matches
      && r.filetype == (if contentType.Some? && contentType.value != "" then contentType.value else "unknown")
      && r.status == Decide(matches, filename, ai, generated, m).status
      && r.confidence == Decide(matches, filename, ai, generated, m).confidence
      && r.aiInsight == Decide(matches, filename, ai, generated, m).insight
    ensures fault.None? ==> e.inserted == Decide(matches, filename, ai, generated, m).newRule
    ensures e.inserted.Some? ==> e.ruleFile == Some((e.inserted.value.ruleId + ".yar", e.inserted.value.content))
    ensures e.inserted.None? ==> e.ruleFile.None?
  {
    if fault.Some? then ScanEffects(HttpError(500, fault.value), None, None)
    else
      var v := Decide(matches, filename, ai, generated, m);
      var fileType := if contentType.Some? && contentType.value != "" then contentType.value else "unknown";
      var result := Models.NewScanResult(filename, size, fileType, v.status, v.confidence,
                                         Some(matches), Some(v.insight), scanId, now);
      match v.newRule
      case None => ScanEffects(Ok(result), None, None)
      case Some(rule) => ScanEffects(Ok(result), Some(rule), Some((rule.ruleId + ".yar", rule.content)))
  }

  // ---------------------------------------------------------------- sync

  /** The names of the stored rules. */
  function Names(stored: seq<Models.YaraRule>): set<string>
    decreases |stored|
  {
    if |stored| == 0 then {} else Names(stored[..|stored| - 1]) + {stored[|stored| - 1].name}
  }

  /** A name is among `Names(stored)` exactly when a stored rule carries it:
      the set is what the by-name lookup consults. */
  lemma {:induction false} NamesExact(stored: seq<Models.YaraRule>, n: string)
    ensures n in Names(stored) <==> exists k :: 0 <= k < |stored| && stored[k].name == n
    decreases |stored|
  {
    if |stored| > 0 {
      var last := |stored| - 1;
      NamesExact(stored[..last], n);
      if exists k :: 0 <= k < last && stored[..last][k].name == n {
        var k :| 0 <= k < last && stored[..last][k].name == n;
        assert stored[k].name == n;
      }
      if exists k :: 0 <= k < |stored| && stored[k].name == n {
        var k :| 0 <= k < |stored| && stored[k].name == n;
        if k < last { assert stored[..last][k].name == n; }
      }
    }
  }

  /** Reference for what a sync inserts: the fetched rules, in order, whose
      name is neither already `known` nor taken by an earlier fetched rule. */
  function Fresh(known: set<string>, fetched: seq<FeedService.FeedRule>): (added: seq<FeedService.FeedRule>)
    ensures |added| <= |fetched|
    decreases |fetched|
  {
    if |fetched| == 0 then []
    else if fetched[0].name in known then Fresh(known, fetched[1..])
    else [fetched[0]] + Fresh(known + {fetched[0].name}, fetched[1..])
  }

  /** Inserted names are new and pairwise distinct. */
  lemma {:induction false} FreshNamesNewAndDistinct(known: set<string>, fetched: seq<FeedService.FeedRule>)
    ensures forall k :: 0 <= k < |Fresh(known, fetched)| ==> Fresh(known, fetched)[k].name !in known
    ensures forall i, j :: 0 <= i < j < |Fresh(known, fetched)| ==>
      Fresh(known, fetched)[i].name != Fresh(known, fetched)[j].name
    decreases |fetched|
  {
    if |fetched| > 0 {
      var f := fetched[0];
      if f.name in known {
        FreshNamesNewAndDistinct(known, fetched[1..]);
      } else {
        var tail := Fresh(known + {f.name}, fetched[1..]);
        FreshNamesNewAndDistinct(known + {f.name}, fetched[1..]);
        var added := [f] + tail;
        assert Fresh(known, fetched) == added;
        forall i, j | 0 <= i < j < |added| ensures added[i].name != added[j].name {
          assert added[j] == tail[j - 1];
          if i > 0 { assert added[i] == tail[i - 1]; }
        }
        forall k | 0 <= k < |added| ensures added[k].name !in known {
          if k > 0 { assert added[k] == tail[k - 1]; }
        }
      }
    }
  }

  /** The names of some fetched rules. */
  function RuleNames(rules: seq<FeedService.FeedRule>): (names: set<string>)
    ensures forall k :: 0 <= k < |rules| ==> rules[k].name in names
    decreases |rules|
  {
    if |rules| == 0 then {} else {rules[0].name} + RuleNames(rules[1..])
  }

  /** Every fetched name is either known beforehand or carried by an
      inserted rule. */
  lemma {:induction false} FreshCoversFetched(known: set<string>, fetched: seq<FeedService.FeedRule>)
    ensures RuleNames(fetched) <= known + RuleNames(Fresh(known, fetched))
    decreases |fetched|
  {
    if |fetched| > 0 {
      var f := fetched[0];
      if f.name in known {
        FreshCoversFetched(known, fetched[1..]);
      } else {
        FreshCoversFetched(known + {f.name}, fetched[1..]);
        assert Fresh(known, fetched) == [f] + Fresh(known + {f.name}, fetched[1..]);
        assert ([f] + Fresh(known + {f.name}, fetched[1..]))[1..] == Fresh(known + {f.name}, fetched[1..]);
      }
    }
  }

  /** Every inserted rule is one of the fetched rules. */
  lemma {:induction false} FreshFromFetched(known: set<string>, fetched: seq<FeedService.FeedRule>)
    ensures forall r :: r in Fresh(known, fetched) ==> r in fetched
    decreases |fetched|
  {
    if |fetched| > 0 {
      var f := fetched[0];
      var known' := if f.name in known then known else known + {f.name};
      FreshFromFetched(known', fetched[1..]);
      assert forall r :: r in fetched[1..] ==> r in fetched;
    }
  }

  /** Every MalwareBazaar rule has the same name, so once one is stored a
      later sync never stores another, whatever hashes it carries. */
  lemma BazaarRuleStoredOnce(stored: seq<Models.YaraRule>, response: Http.Outcome<FeedService.BazaarBody>)
    requires exists k :: 0 <= k < |stored| && stored[k].name == FeedService.BazaarRuleName
    ensures Fresh(Names(stored), FeedService.BazaarRules(response)) == []
  {
    NamesExact(stored, FeedService.BazaarRuleName);
  }

  /** The stored record of a fetched rule. */
  function Stored(f: FeedService.FeedRule, recordId: string, now: int): (r: Models.YaraRule)
    ensures r.ruleId == f.ruleId && r.name == f.name && r.content == f.content
    ensures r.source == f.source && r.family == f.family && r.severity == f.severity
    ensures r.id == recordId && r.dateAdded == now
  {
    var built := Models.NewYaraRule(
      Models.RuleFields(Some(f.ruleId), Some(f.name), Some(f.family), Some(f.severity),
                        Some(f.content), Some(f.source)),
      recordId, now);
    built.value
  }

  /** The records the sync stores for `added`: the `k`-th gets record id
      `ids(k)` and timestamp `clock(k)`. */
  function Inserted(added: seq<FeedService.FeedRule>, ids: nat -> string, clock: nat -> int)
    : seq<Models.YaraRule>
  {
    seq(|added|, k requires 0 <= k < |added| => Stored(added[k], ids(k), clock(k)))
  }

  /** The rule files the sync writes for `added`: `<rule_id>.yar` with the
      rule's text. */
  function RuleFiles(added: seq<FeedService.FeedRule>): seq<(string, string)> {
    seq(|added|, k requires 0 <= k < |added| => (added[k].ruleId + ".yar", added[k].content))
  }

  /** The background sync over already-fetched rules: it appends exactly the
      reference's rules, writes their files, counts them, and leaves every
      fetched name stored. */
  method SyncFeeds(stored: seq<Models.YaraRule>, fetched: seq<FeedService.FeedRule>,
                   ids: nat -> string, clock: nat -> int)
    returns (db: seq<Models.YaraRule>, files: seq<(string, string)>, count: nat)
    ensures count == |Fresh(Names(stored), fetched)|
    ensures db == stored + Inserted(Fresh(Names(stored), fetched), ids, clock)
    ensures files == RuleFiles(Fresh(Names(stored), fetched))
    ensures forall k :: 0 <= k < |fetched| ==> fetched[k].name in Names(db)
  {
    ghost var added := Fresh(Names(stored), fetched);
    ghost var inserted: seq<FeedService.FeedRule> := [];
    db := stored;
    files := [];
    count := 0;
    var names := Names(stored);
    var i := 0;
    assert fetched[0..] == fetched;
    assert Inserted(inserted, ids, clock) == [];
    while i < |fetched|
      invariant 0 <= i <= |fetched|
      invariant Synced(stored, db, files, count, names, inserted, ids, clock)
      invariant added == inserted + Fresh(names, fetched[i..])
      invariant forall k :: 0 <= k < i ==> fetched[k].name in names
    {
      var f := fetched[i];
      FreshAdvance(added, inserted, names, fetched, i);
      db, files, count, names, inserted := InsertIfNew(stored, db, files, count, names, inserted, f, ids, clock);
      i := i + 1;
    }
    FreshDone(added, inserted, names, fetched);
  }

  /** The reference advanced by one fetched rule. */
  lemma FreshAdvance(added: seq<FeedService.FeedRule>, inserted: seq<FeedService.FeedRule>,
                     names: set<string>, fetched: seq<FeedService.FeedRule>, i: nat)
    requires i < |fetched| && added == inserted + Fresh(names, fetched[i..])
    ensures fetched[i].name in names ==> added == inserted + Fresh(names, fetched[i + 1..])
    ensures fetched[i].name !in names ==>
      added == (inserted + [fetched[i]]) + Fresh(names + {fetched[i].name}, fetched[i + 1..])
  {
    SyncStep(names, fetched, i);
  }

  lemma FreshDone(added: seq<FeedService.FeedRule>, inserted: seq<FeedService.FeedRule>,
                  names: set<string>, fetched: seq<FeedService.FeedRule>)
    requires added == inserted + Fresh(names, fetched[|fetched|..])
    ensures added == inserted
  {
    assert fetched[|fetched|..] == [];
  }

  /** What the sync keeps true between fetched rules: the collection is the
      stored rules plus the inserted ones, one file per inserted rule, and
      `names` is the name set the by-name lookup consults. */
  ghost predicate Synced(stored: seq<Models.YaraRule>, db: seq<Models.YaraRule>, files: seq<(string, string)>,
                         count: nat, names: set<string>, inserted: seq<FeedService.FeedRule>,
                         ids: nat -> string, clock: nat -> int) {
    && db == stored + Inserted(inserted, ids, clock)
    && files == RuleFiles(inserted)
    && names == Names(db)
    && count == |inserted|
  }

  /** One iteration of the sync: look the name up, and insert the rule,
      write its file and count it when the name is new. */
  method InsertIfNew(stored: seq<Models.YaraRule>, db: seq<Models.YaraRule>, files: seq<(string, string)>,
                     count: nat, names: set<string>, ghost inserted: seq<FeedService.FeedRule>,
                     f: FeedService.FeedRule, ids: nat -> string, clock: nat -> int)
    returns (db': seq<Models.YaraRule>, files': seq<(string, string)>, count': nat,
             names': set<string>, ghost inserted': seq<FeedService.FeedRule>)
    requires Synced(stored, db, files, count, names, inserted, ids, clock)
    ensures Synced(stored, db', files', count', names', inserted', ids, clock)
    ensures f.name in names ==> names' == names && inserted' == inserted
    ensures f.name !in names ==> names' == names + {f.name} && inserted' == inserted + [f]
    ensures f.name in names'
  {
    if f.name in names {
      db', files', count', names', inserted' := db, files, count, names, inserted;
    } else {
      var rule := Stored(f, ids(count), clock(count));
      NamesAppend(db, rule);
      InsertedSnoc(stored, inserted, f, ids, clock);
      db' := db + [rule];
      files' := files + [(rule.ruleId + ".yar", rule.content)];
      count' := count + 1;
      names' := names + {f.name};
      inserted' := inserted + [f];
    }
  }

  /** Appending one rule to the inserted list appends its record and file. */
  lemma InsertedSnoc(stored: seq<Models.YaraRule>, inserted: seq<FeedService.FeedRule>, f: FeedService.FeedRule,
                     ids: nat -> string, clock: nat -> int)
    ensures stored + Inserted(inserted + [f], ids, clock)
         == stored + Inserted(inserted, ids, clock) + [Stored(f, ids(|inserted|), clock(|inserted|))]
    ensures RuleFiles(inserted + [f]) == RuleFiles(inserted) + [(f.ruleId + ".yar", f.content)]
  {
    assert Inserted(inserted + [f], ids, clock)
        == Inserted(inserted, ids, clock) + [Stored(f, ids(|inserted|), clock(|inserted|))];
  }

  /** One step of the reference: the rule at `i` is inserted exactly when
      its name is not yet known. */
  lemma SyncStep(names: set<string>, fetched: seq<FeedService.FeedRule>, i: nat)
    requires i < |fetched|
    ensures fetched[i].name in names ==> Fresh(names, fetched[i..]) == Fresh(names, fetched[i + 1..])
    ensures fetched[i].name !in names ==>
      Fresh(names, fetched[i..]) == [fetched[i]] + Fresh(names + {fetched[i].name}, fetched[i + 1..])
  {
    assert fetched[i..][0] == fetched[i];
    assert fetched[i..][1..] == fetched[i + 1..];
  }

  lemma NamesAppend(db: seq<Models.YaraRule>, r: Models.YaraRule)
    ensures Names(db + [r]) == Names(db) + {r.name}
  {
    assert (db + [r])[..|db|] == db;
  }

  /** The whole background task: fetch the requested feeds, then insert the
      new ones. */
  method SyncFeedsTask(sources: seq<string>, inputs: FeedService.FeedInputs,
                       stored: seq<Models.YaraRule>, ids: nat -> string, clock: nat -> int)
    returns (db: seq<Models.YaraRule>, files: seq<(string, string)>, count: nat)
    ensures count <= 9
    ensures db == stored + Inserted(Fresh(Names(stored), FeedService.FetchAllFrom(sources, inputs)), ids, clock)
  {
    FeedService.FetchAllFromBound(sources, inputs);
    db, files, count := SyncFeeds(stored, FeedService.FetchAllFrom(sources, inputs), ids, clock);
  }

  // ------------------------------------------------------------- listing

  const PageSize := 100

  ghost predicate NewestFirst(rules: seq<Models.YaraRule>) {
    forall i, j :: 0 <= i < j < |rules| ==> rules[i].dateAdded >= rules[j].dateAdded
  }

  function InsertByDate(r: Models.YaraRule, sorted: seq<Models.YaraRule>): (t: seq<Models.YaraRule>)
    requires NewestFirst(sorted)
    ensures NewestFirst(t) && multiset(t) == multiset(sorted) + multiset{r} && |t| == |sorted| + 1
    ensures |t| > 0 && (t[0] == r || (|sorted| > 0 && t[0] == sorted[0]))
    decreases |sorted|
  {
    if |sorted| == 0 || r.dateAdded >= sorted[0].dateAdded then
      [r] + sorted
    else
      var rest := InsertByDate(r, sorted[1..]);
      assert sorted == [sorted[0]] + sorted[1..];
      [sorted[0]] + rest
  }

  /** The rules ordered newest first. */
  function SortByDate(rules: seq<Models.YaraRule>): (t: seq<Models.YaraRule>)
    ensures NewestFirst(t) && multiset(t) == multiset(rules) && |t| == |rules|
    decreases |rules|
  {
    if |rules| == 0 then []
    else
      assert rules == [rules[0]] + rules[1..];
      InsertByDate(rules[0], SortByDate(rules[1..]))
  }

  /** The rule listing: the 100 newest rules, newest first. No rule left
      out is newer than a listed one. */
  function GetRules(stored: seq<Models.YaraRule>): (page: seq<Models.YaraRule>)
    ensures |page| == if |stored| < PageSize then |stored| else PageSize
    ensures NewestFirst(page)
    ensures multiset(page) <= multiset(stored)
    ensures forall x, k :: x in multiset(stored) - multiset(page) && 0 <= k < |page| ==>
      x.dateAdded <= page[k].dateAdded
  {
    var sorted := SortByDate(stored);
    var n := if |sorted| <= PageSize then |sorted| else PageSize;
    PrefixIsNewest(sorted, n);
    sorted[..n]
  }

  /** A newest-first list's first `n` rules are at least as new as all the
      others. */
  lemma PrefixIsNewest(sorted: seq<Models.YaraRule>, n: nat)
    requires NewestFirst(sorted) && n <= |sorted|
    ensures NewestFirst(sorted[..n])
    ensures multiset(sorted) - multiset(sorted[..n]) == multiset(sorted[n..])
    ensures forall x, k :: x in multiset(sorted[n..]) && 0 <= k < n ==> x.dateAdded <= sorted[k].dateAdded
  {
    assert sorted == sorted[..n] + sorted[n..];
    forall x, k | x in multiset(sorted[n..]) && 0 <= k < n ensures x.dateAdded <= sorted[k].dateAdded {
      var j :| 0 <= j < |sorted[n..]| && sorted[n..][j] == x;
      assert sorted[n + j] == x;
    }
  }

  // ------------------------------------------------------------- trigger

  /** The quote Python's `repr` picks: double quotes only when the string
      has a single quote and no double quote. */
  function QuoteFor(s: string): char {
    if '\'' in s && '"' !in s then '"' else '\''
  }

  function EscapeChar(c: char, q: char): string {
    if c == '\\' then "\\\\"
    else if c == q then ['\\', q]
    else if c == '\n' then "\\n"
    else if c == '\r' then "\\r"
    else if c == '\t' then "\\t"
    else [c]
  }

  function EscapeBody(s: string, q: char): string
    decreases |s|
  {
    if |s| == 0 then "" else EscapeChar(s[0], q) + EscapeBody(s[1..], q)
  }

  /** Python `repr` of a string (control characters other than newline,
      carriage return and tab are kept as they are). */
  function PyRepr(s: string): (r: string)
    ensures |r| >= 2 && r[0] == r[|r| - 1] == QuoteFor(s)
  {
    [QuoteFor(s)] + EscapeBody(s, QuoteFor(s)) + [QuoteFor(s)]
  }

  /** Reads an escaped body back. */
  function Unescape(t: string, q: char): string
    decreases |t|
  {
    if |t| == 0 then ""
    else if t[0] == '\\' && |t| >= 2 then
      var c := t[1];
      [if c == 'n' then '\n' else if c == 'r' then '\r' else if c == 't' then '\t' else c]
      + Unescape(t[2..], q)
    else [t[0]] + Unescape(t[1..], q)
  }

  /** The escaping loses nothing: reading the body back gives the string. */
  lemma {:induction false} UnescapeEscape(s: string, q: char)
    requires q == '\'' || q == '"'
    ensures Unescape(EscapeBody(s, q), q) == s
    decreases |s|
  {
    if |s| > 0 {
      UnescapeEscape(s[1..], q);
      UnescapeOne(s[0], EscapeBody(s[1..], q), q);
      assert s == [s[0]] + s[1..];
    }
  }

  /** One escaped character reads back as itself. */
  lemma UnescapeOne(c: char, rest: string, q: char)
    requires q == '\'' || q == '"'
    ensures Unescape(EscapeChar(c, q) + rest, q) == [c] + Unescape(rest, q)
  {
    var t := EscapeChar(c, q) + rest;
    if |EscapeChar(c, q)| == 2 {
      assert t[2..] == rest;
    } else {
      assert t[1..] == rest;
    }
  }

  /** Python `repr` of a list of strings. */
  function PyListRepr(items: seq<string>): (r: string)
    ensures |r| >= 2 && r[0] == '[' && r[|r| - 1] == ']'
  {
    "[" + Text.Join(Reprs(items), ", ") + "]"
  }

  function Reprs(items: seq<string>): (rs: seq<string>)
    ensures |rs| == |items| && forall k :: 0 <= k < |items| ==> rs[k] == PyRepr(items[k])
  {
    seq(|items|, k requires 0 <= k < |items| => PyRepr(items[k]))
  }

  /** The sync trigger answers at once and defers the sync of exactly the
      requested sources. */
  function TriggerSync(req: Models.SyncRequest): (r: (string, seq<string>))
    ensures r.1 == req.sources
    ensures Text.StartsWith(r.0, "Rule sync started for [")
  {
    ("Rule sync started for " + PyListRepr(req.sources), req.sources)
  }

  /** Characters `repr` writes unchanged inside single quotes. */
  predicate Plain(s: string) {
    forall k :: 0 <= k < |s| ==> s[k] !in {'\\', '\'', '"', '\n', '\r', '\t'}
  }

  /** A plain string's `repr` is the string in single quotes. */
  lemma {:induction false} PlainRepr(s: string)
    requires Plain(s)
    ensures EscapeBody(s, '\'') == s
    ensures PyRepr(s) == "'" + s + "'"
    decreases |s|
  {
    if |s| > 0 {
      PlainRepr(s[1..]);
      assert s == [s[0]] + s[1..];
    }
  }

  /** For plain source names the message lists each name in single quotes,
      separated by ", ", inside brackets. */
  lemma PlainTriggerMessage(req: Models.SyncRequest)
    requires forall k :: 0 <= k < |req.sources| ==> Plain(req.sources[k])
    ensures TriggerSync(req).0 == "Rule sync started for ["
      + Text.Join(seq(|req.sources|, k requires 0 <= k < |req.sources| => "'" + req.sources[k] + "'"), ", ")
      + "]"
  {
    forall k | 0 <= k < |req.sources| ensures PyRepr(req.sources[k]) == "'" + req.sources[k] + "'" {
      PlainRepr(req.sources[k]);
    }
    var quoted := seq(|req.sources|, k requires 0 <= k < |req.sources| => "'" + req.sources[k] + "'");
    assert Reprs(req.sources) == quoted;
    var j := Text.Join(quoted, ", ");
    assert PyListRepr(req.sources) == "[" + j + "]";
    assert TriggerSync(req).0 == "Rule sync started for " + ("[" + j + "]");
    assert "Rule sync started for " + ("[" + j + "]") == "Rule sync started for [" + j + "]";
  }
}

=== FILE: text.dfy ===
/** String primitives the Python and JavaScript sources rely on: ASCII case
    mapping (`lower`, `upper`, `toLowerCase`), substring search (`in`,
    `includes`), `strip`/`rstrip`, `replace`, `join`, `split` and decimal
    conversion of natural numbers (`str(n)`, `int(digits)`). */
module Text {

  // ---------------------------------------------------------------- case

  function LowerChar(c: char): char {
    if 'A' <= c <= 'Z' then (c as int + 32) as char else c
  }

  function UpperChar(c: char): char {
    if 'a' <= c <= 'z' then (c as int - 32) as char else c
  }

  /** ASCII `toLowerCase` / `lower`. */
  function Lower(s: string): (r: string)
    ensures |r| == |s|
    ensures forall i :: 0 <= i < |s| ==> r[i] == LowerChar(s[i])
  {
    seq(|s|, i requires 0 <= i < |s| => LowerChar(s[i]))
  }

  /** ASCII `upper`. */
  function Upper(s: string): (r: string)
    ensures |r| == |s|
    ensures forall i :: 0 <= i < |s| ==> r[i] == UpperChar(s[i])
  {
    seq(|s|, i requires 0 <= i < |s| => UpperChar(s[i]))
  }

  // ----------------------------------------------------------- substrings

  predicate StartsWith(s: string, prefix: string) {
    |prefix| <= |s| && s[..|prefix|] == prefix
  }

  /** `t` occurs in `s` starting at index `i`. */
  ghost predicate OccursAt(s: string, t: string, i: int) {
    0 <= i && i + |t| <= |s| && s[i..i + |t|] == t
  }

  /** Python `t in s`, JavaScript `s.includes(t)`. */
  predicate Contains(s: string, t: string)
    decreases |s|
  {
    StartsWith(s, t) || (|s| > 0 && Contains(s[1..], t))
  }

  /** A slice of the tail is the slice one further along. */
  lemma TailSlice(s: string, i: nat, n: nat)
    requires i + n < |s|
    ensures s[1..][i..i + n] == s[i + 1..i + 1 + n]
  {
  }

  /** `Contains` is exactly "occurs at some index". */
  lemma {:induction false} ContainsIffOccurs(s: string, t: string)
    ensures Contains(s, t) <==> exists i :: OccursAt(s, t, i)
    decreases |s|
  {
    if |s| > 0 {
      ContainsIffOccurs(s[1..], t);
      if StartsWith(s, t) {
        assert OccursAt(s, t, 0);
      }
      if Contains(s[1..], t) {
        var i :| OccursAt(s[1..], t, i);
        TailSlice(s, i, |t|);
        assert OccursAt(s, t, i + 1);
      }
      if exists i :: OccursAt(s, t, i) {
        var i :| OccursAt(s, t, i);
        if i > 0 {
          TailSlice(s, i - 1, |t|);
          assert OccursAt(s[1..], t, i - 1);
        } else {
          assert StartsWith(s, t);
        }
      }
    } else {
      if Contains(s, t) {
        assert OccursAt(s, t, 0);
      }
      if exists i :: OccursAt(s, t, i) {
        var i :| OccursAt(s, t, i);
        assert StartsWith(s, t);
      }
    }
  }

  /** A string never contains a longer one. */
  lemma ContainsNotLonger(s: string, t: string)
    requires |s| < |t|
    ensures !Contains(s, t)
    decreases |s|
  {
    if |s| > 0 {
      ContainsNotLonger(s[1..], t);
    }
  }

  /** Unfolds `Contains` once for a string with a known first character. */
  lemma ContainsCons(c: char, s: string, t: string)
    ensures Contains([c] + s, t) <==> StartsWith([c] + s, t) || Contains(s, t)
  {
    assert ([c] + s)[1..] == s;
  }

  /** Every string contains the empty string. */
  lemma ContainsEmpty(s: string)
    ensures Contains(s, "")
  {
    assert StartsWith(s, "");
  }

  // -------------------------------------------------------------- classes

  /** The characters Python's `str.isspace` (and so `strip()` and the regex
      `\s`) accepts below U+0100. */
  const Whitespace: set<char> :=
    {' ', '\t', '\n', '\r', 11 as char, 12 as char,
     28 as char, 29 as char, 30 as char, 31 as char, 133 as char, 160 as char}

  /** First index at or after `i` that is not whitespace. */
  function SkipWhitespace(t: string, i: nat): (j: nat)
    requires i <= |t|
    ensures i <= j <= |t|
    ensures forall k :: i <= k < j ==> t[k] in Whitespace
    ensures j == |t| || t[j] !in Whitespace
    decreases |t| - i
  {
    if i == |t| || t[i] !in Whitespace then i else SkipWhitespace(t, i + 1)
  }

  predicate IsDigit(c: char) { '0' <= c <= '9' }

  /** Regex `\w` restricted to ASCII. */
  predicate IsWordChar(c: char) {
    'a' <= c <= 'z' || 'A' <= c <= 'Z' || '0' <= c <= '9' || c == '_'
  }

  // ------------------------------------------------------------ trimming

  /** `s.lstrip(chars)` for a character set. */
  function TrimStart(s: string, cs: set<char>): (r: string)
    ensures |r| <= |s| && r == s[|s| - |r|..]
    ensures |r| == 0 || r[0] !in cs
    ensures forall i :: 0 <= i < |s| - |r| ==> s[i] in cs
    decreases |s|
  {
    if |s| > 0 && s[0] in cs then TrimStart(s[1..], cs) else s
  }

  /** `s.rstrip(chars)` for a character set: removes the longest suffix made
      of characters of `cs`, which is not the same as removing a suffix
      string. */
  function TrimEnd(s: string, cs: set<char>): (r: string)
    ensures |r| <= |s| && r == s[..|r|]
    ensures |r| == 0 || r[|r| - 1] !in cs
    ensures forall i :: |r| <= i < |s| ==> s[i] in cs
    decreases |s|
  {
    if |s| > 0 && s[|s| - 1] in cs then TrimEnd(s[..|s| - 1], cs) else s
  }

  /** Python `strip()` with no argument. */
  function Strip(s: string): (r: string)
    ensures |r| == 0 || (r[0] !in Whitespace && r[|r| - 1] !in Whitespace)
    ensures forall c :: c !in Whitespace && c in s ==> c in r
    ensures exists i, j :: PaddedSlice(s, i, j, Whitespace) && r == s[i..j]
  {
    var t := TrimStart(s, Whitespace);
    var r := TrimEnd(t, Whitespace);
    assert |r| == 0 || (r[0] !in Whitespace && r[|r| - 1] !in Whitespace) by {
      assert |r| > 0 ==> r[0] == t[0];
    }
    assert forall c :: c !in Whitespace && c in s ==> c in r by {
      TrimStartKeeps(s, Whitespace);
      TrimEndKeeps(t, Whitespace);
    }
    assert PaddedSlice(s, |s| - |t|, |s| - |t| + |r|, Whitespace) && r == s[|s| - |t|..|s| - |t| + |r|] by {
      TrimBothSlice(s, Whitespace, t, r);
    }
    r
  }

  /** `s[i..j]` is `s` with only characters of `cs` removed at both ends. */
  ghost predicate PaddedSlice(s: string, i: int, j: int, cs: set<char>) {
    && 0 <= i <= j <= |s|
    && (forall k :: 0 <= k < i ==> s[k] in cs)
    && (forall k :: j <= k < |s| ==> s[k] in cs)
  }

  /** Stripping both ends leaves a slice padded by characters of `cs`. */
  lemma TrimBothSlice(s: string, cs: set<char>, t: string, r: string)
    requires t == TrimStart(s, cs) && r == TrimEnd(t, cs)
    ensures PaddedSlice(s, |s| - |t|, |s| - |t| + |r|, cs)
    ensures r == s[|s| - |t|..|s| - |t| + |r|]
  {
    SliceOfSuffix(s, t, r, cs);
  }

  /** A prefix `r` of a suffix `t` of `s` is a slice of `s`; what `t` has
      past `r` is what `s` has past that slice. */
  lemma SliceOfSuffix(s: string, t: string, r: string, cs: set<char>)
    requires |t| <= |s| && t == s[|s| - |t|..]
    requires |r| <= |t| && r == t[..|r|]
    requires forall k :: |r| <= k < |t| ==> t[k] in cs
    ensures r == s[|s| - |t|..|s| - |t| + |r|]
    ensures forall k :: |s| - |t| + |r| <= k < |s| ==> s[k] in cs
  {
    var i := |s| - |t|;
    forall k | i + |r| <= k < |s|
      ensures s[k] in cs
    {
      assert s[k] == t[k - i];
    }
  }

  /** Left-stripping keeps every character outside the set. */
  lemma {:induction false} TrimStartKeeps(s: string, cs: set<char>)
    ensures forall c :: c !in cs && c in s ==> c in TrimStart(s, cs)
  {
    var t := TrimStart(s, cs);
    var d := |s| - |t|;
    assert t == s[d..];
    forall c | c !in cs && c in s ensures c in t {
      var i :| 0 <= i < |s| && s[i] == c;
      assert d <= i;
      assert s[d..][i - d] == s[i];
    }
  }

  /** Right-stripping keeps every character outside the set. */
  lemma {:induction false} TrimEndKeeps(s: string, cs: set<char>)
    ensures forall c :: c !in cs && c in s ==> c in TrimEnd(s, cs)
  {
    var t := TrimEnd(s, cs);
    forall c | c !in cs && c in s ensures c in t {
      var i :| 0 <= i < |s| && s[i] == c;
      assert s[i] == t[i];
    }
  }

  // ----------------------------------------------------------- replacing

  /** Python `s.replace(pat, rep)`: every non-overlapping occurrence of
      `pat`, found left to right, is replaced. */
  function ReplaceAll(s: string, pat: string, rep: string): (r: string)
    requires |pat| > 0
    ensures !Contains(s, pat) ==> r == s
    decreases |s|
  {
    if |s| < |pat| then
      s
    else if s[..|pat|] == pat then
      rep + ReplaceAll(s[|pat|..], pat, rep)
    else
      [s[0]] + ReplaceAll(s[1..], pat, rep)
  }

  // ------------------------------------------------------ joining, splits

  /** Python `sep.join(parts)`, JavaScript `parts.join(sep)`. */
  function Join(parts: seq<string>, sep: string): string
    decreases |parts|
  {
    if |parts| == 0 then ""
    else if |parts| == 1 then parts[0]
    else parts[0] + sep + Join(parts[1..], sep)
  }

  /** Appending `suffix` to every part equals joining with `suffix + sep`
      and appending `suffix` once. */
  lemma {:induction false} JoinAppendEach(parts: seq<string>, suffix: string, sep: string)
    requires |parts| > 0
    ensures Join(seq(|parts|, k requires 0 <= k < |parts| => parts[k] + suffix), sep)
         == Join(parts, suffix + sep) + suffix
    decreases |parts|
  {
    var ext := seq(|parts|, k requires 0 <= k < |parts| => parts[k] + suffix);
    if |parts| > 1 {
      JoinAppendEach(parts[1..], suffix, sep);
      var tailExt := seq(|parts| - 1, k requires 0 <= k < |parts| - 1 => parts[1..][k] + suffix);
      assert ext[1..] == tailExt;
    }
  }

  /** A join ends with the last part's last character. */
  lemma {:induction false} JoinLastChar(parts: seq<string>, sep: string)
    requires |parts| > 0 && |parts[|parts| - 1]| > 0
    ensures var j := Join(parts, sep);
      |j| > 0 && j[|j| - 1] == parts[|parts| - 1][|parts[|parts| - 1]| - 1]
    decreases |parts|
  {
    if |parts| > 1 {
      JoinLastChar(parts[1..], sep);
    }
  }

  /** Right-stripping a set of characters from `x + tail` removes exactly
      `tail` when all of `tail` is in the set and `x` ends outside it. */
  lemma {:induction false} TrimEndStopsAt(x: string, tail: string, cs: set<char>)
    requires |x| > 0 && x[|x| - 1] !in cs
    requires forall k :: 0 <= k < |tail| ==> tail[k] in cs
    ensures TrimEnd(x + tail, cs) == x
    decreases |tail|
  {
    if |tail| > 0 {
      var s := x + tail;
      assert s[..|s| - 1] == x + tail[..|tail| - 1];
      TrimEndStopsAt(x, tail[..|tail| - 1], cs);
    } else {
      assert x + tail == x;
    }
  }

  /** Every occurrence of `from` replaced by `to`. */
  function ReplaceChar(s: string, from: char, to: char): (r: string)
    ensures |r| == |s|
    ensures forall k :: 0 <= k < |s| ==> r[k] == if s[k] == from then to else s[k]
  {
    seq(|s|, k requires 0 <= k < |s| => if s[k] == from then to else s[k])
  }

  /** Index of the first `c` in `s`, or `|s|` when there is none. */
  function IndexOf(s: string, c: char): (i: nat)
    ensures i <= |s|
    ensures i < |s| ==> s[i] == c
    ensures forall k :: 0 <= k < i ==> s[k] != c
    decreases |s|
  {
    if |s| == 0 then 0 else if s[0] == c then 0 else 1 + IndexOf(s[1..], c)
  }

  /** Python `s.split(c)` for a single-character separator. */
  function Split(s: string, c: char): (parts: seq<string>)
    ensures |parts| > 0
    ensures forall k :: 0 <= k < |parts| ==> c !in parts[k]
    decreases |s|
  {
    var i := IndexOf(s, c);
    if i == |s| then [s] else [s[..i]] + Split(s[i + 1..], c)
  }

  /** Where the last part of a split starts: at the beginning or just
      after a separator. With `Split`'s contract (no part holds the
      separator) the last part is the suffix after the last separator. */
  ghost function LastPartStart(s: string, c: char): (i: nat)
    ensures i <= |s|
    ensures Split(s, c)[|Split(s, c)| - 1] == s[i..]
    ensures i == 0 || s[i - 1] == c
    decreases |s|
  {
    var n := IndexOf(s, c);
    if n == |s| then 0
    else
      var rest := s[n + 1..];
      var j := LastPartStart(rest, c);
      var i := n + 1 + j;
      assert s[i - 1] == c by {
        if j > 0 {
          assert s[i - 1] == rest[j - 1];
        }
      }
      assert Split(s, c)[|Split(s, c)| - 1] == s[i..] by {
        SplitLastOfTail(s, c, n);
        assert rest[j..] == s[i..];
      }
      i
  }

  /** Past the first separator, at `n`, the last part is the tail's last
      part. */
  lemma SplitLastOfTail(s: string, c: char, n: nat)
    requires n == IndexOf(s, c) < |s|
    ensures Split(s, c)[|Split(s, c)| - 1] == Split(s[n + 1..], c)[|Split(s[n + 1..], c)| - 1]
  {
    var tail := Split(s[n + 1..], c);
    var parts := Split(s, c);
    assert parts == [s[..n]] + tail;
    assert parts[|parts| - 1] == tail[|tail| - 1];
  }

  /** Splitting a join recovers the parts when no part contains the
      separator. */
  lemma {:induction false} SplitJoin(parts: seq<string>, c: char)
    requires |parts| > 0
    requires forall k :: 0 <= k < |parts| ==> c !in parts[k]
    ensures Split(Join(parts, [c]), c) == parts
    decreases |parts|
  {
    var s := Join(parts, [c]);
    var p := parts[0];
    if |parts| == 1 {
      assert IndexOf(p, c) == |p|;
    } else {
      var rest := Join(parts[1..], [c]);
      assert s == p + [c] + rest;
      IndexOfPrefix(p, c, rest);
      assert s[..|p|] == p;
      assert s[|p| + 1..] == rest;
      SplitJoin(parts[1..], c);
      assert parts == [p] + parts[1..];
    }
  }

  lemma IndexOfPrefix(p: string, c: char, rest: string)
    requires c !in p
    ensures IndexOf(p + [c] + rest, c) == |p|
  {
    var s := p + [c] + rest;
    assert forall k :: 0 <= k < |p| ==> s[k] == p[k] && p[k] != c;
    assert s[|p|] == c;
  }

  /** Joining a split gives back the original string. */
  lemma {:induction false} JoinSplit(s: string, c: char)
    ensures Join(Split(s, c), [c]) == s
    decreases |s|
  {
    var i := IndexOf(s, c);
    if i < |s| {
      JoinSplit(s[i + 1..], c);
      var tail := Split(s[i + 1..], c);
      assert Split(s, c) == [s[..i]] + tail;
      assert s == s[..i] + [c] + s[i + 1..];
    }
  }

  /** Replacing a character is replacing the one-character string. */
  lemma {:induction false} ReplaceCharIsReplaceAll(s: string, from: char, to: char)
    ensures ReplaceChar(s, from, to) == ReplaceAll(s, [from], [to])
    decreases |s|
  {
    if |s| > 0 {
      ReplaceCharIsReplaceAll(s[1..], from, to);
      var r := ReplaceChar(s, from, to);
      assert r == [r[0]] + ReplaceChar(s[1..], from, to);
      assert s[..1] == [s[0]];
    }
  }

  // ------------------------------------------------------------- numbers

  function DigitChar(d: nat): char
    requires d < 10
  {
    ('0' as int + d) as char
  }

  /** Python `str(n)` for a natural number. */
  function NatToString(n: nat): (r: string)
    ensures |r| > 0
    ensures forall i :: 0 <= i < |r| ==> IsDigit(r[i])
  {
    if n < 10 then [DigitChar(n)] else NatToString(n / 10) + [DigitChar(n % 10)]
  }

  /** Python `int(ds)` for a non-empty run of ASCII digits. */
  function DigitsValue(ds: string): nat
    requires forall i :: 0 <= i < |ds| ==> IsDigit(ds[i])
    decreases |ds|
  {
    if |ds| == 0 then 0
    else
      var d := ds[|ds| - 1];
      assert IsDigit(d);
      DigitsValue(ds[..|ds| - 1]) * 10 + (d as int - '0' as int)
  }

  /** `int(str(n)) == n`. */
  lemma {:induction false} DigitsValueOfNatToString(n: nat)
    ensures DigitsValue(NatToString(n)) == n
  {
    if n >= 10 {
      var s := NatToString(n);
      assert s[..|s| - 1] == NatToString(n / 10);
      DigitsValueOfNatToString(n / 10);
    }
  }
}

=== FILE: threat_chart.dfy ===
/** The verdict chart (frontend/src/components/ThreatChart.jsx): a colour band
    and four category bars, all derived from `(confidence, isMalicious)`. */
module ThreatChart {

  /** The three colours the chart uses: the success colour, amber and the
      destructive colour. */
  datatype Band = SuccessBand | AmberBand | DestructiveBand

  function Severity(b: Band): nat {
    match b
    case SuccessBand => 0
    case AmberBand => 1
    case DestructiveBand => 2
  }

  /** The colour of every bar and of the confidence figure. */
  function ColorBand(confidence: int): (b: Band)
    ensures b == SuccessBand <==> confidence < 30
    ensures b == AmberBand <==> 30 <= confidence < 60
    ensures b == DestructiveBand <==> 60 <= confidence
  {
    if confidence < 30 then SuccessBand
    else if confidence < 60 then AmberBand
    else DestructiveBand
  }

  /** A higher confidence never gives a milder colour. */
  lemma ColorBandMonotone(c1: int, c2: int)
    requires c1 <= c2
    ensures Severity(ColorBand(c1)) <= Severity(ColorBand(c2))
  {
  }

  datatype Category = Category(caption: string, value: int)

  function Min(a: int, b: int): int { if a <= b then a else b }

  const Labels: seq<string> :=
    ["Signature Match", "Behavior Analysis", "Entropy Score", "String Detection"]

  /** The four bars. A malicious verdict scales them from the confidence
      (capped at 100 above, not floored below); a safe verdict shows fixed
      values. */
  function Categories(confidence: int, isMalicious: bool): (cs: seq<Category>)
    ensures |cs| == 4
    ensures forall i :: 0 <= i < 4 ==> cs[i].caption == Labels[i]
    ensures isMalicious ==> forall i :: 0 <= i < 4 ==> cs[i].value <= 100
    ensures isMalicious ==> cs[3].value >= cs[0].value >= cs[1].value >= cs[2].value
    ensures isMalicious && confidence <= 90 ==> cs[3].value == confidence + 10
    ensures isMalicious && confidence >= 100 ==> cs[1].value == 100
    ensures !isMalicious ==> cs[0].value == 10 && cs[1].value == 5 && cs[2].value == 8 && cs[3].value == 12
  {
    [ Category(Labels[0], if isMalicious then Min(confidence + 5, 100) else 10),
      Category(Labels[1], if isMalicious then Min(confidence, 100) else 5),
      Category(Labels[2], if isMalicious then Min(confidence - 10, 100) else 8),
      Category(Labels[3], if isMalicious then Min(confidence + 10, 100) else 12) ]
  }

  /** For a malicious verdict with a confidence of 10 to 100 every bar is a
      valid percentage. */
  lemma MaliciousBarsInRange(confidence: int)
    requires 10 <= confidence <= 100
    ensures forall i :: 0 <= i < 4 ==> 0 <= Categories(confidence, true)[i].value <= 100
  {
  }

  /** Below a confidence of 10 the entropy bar of a malicious verdict is
      negative: the chart does not floor it. */
  lemma EntropyNegativeBelowTen(confidence: int)
    requires confidence < 10
    ensures Categories(confidence, true)[2].value == confidence - 10 < 0
  {
  }

  /** A safe verdict's bars do not depend on the confidence. */
  lemma SafeBarsIgnoreConfidence(c1: int, c2: int)
    ensures Categories(c1, false) == Categories(c2, false)
  {
  }
}

=== FILE: threat_feeds.dfy ===
/** The threat-intelligence summarisers (backend/services/threat_feeds.py):
    recent MalwareBazaar samples and subscribed OTX pulses, reduced to
    bounded result records. Each HTTP answer is an input outcome; an
    exception anywhere in a fetch (including an undecodable body) is
    `Raised`. */
module ThreatFeeds {
  import opened Wrappers
  import opened Http
  import Text

  // ------------------------------------------------------- MalwareBazaar

  /** A sample as MalwareBazaar delivers it; `None` is an absent key. */
  datatype RawSample = RawSample(
    sha256Hash: Option<string>,
    fileType: Option<string>,
    fileName: Option<string>,
    signature: Option<string>,
    tags: Option<seq<string>>,
    firstSeen: Option<string>)

  datatype BazaarBody = BazaarBody(queryStatus: Option<string>, data: Option<seq<RawSample>>)

  /** A processed sample. */
  datatype Sample = Sample(
    sha256Hash: Option<string>,
    fileType: Option<string>,
    fileName: Option<string>,
    signature: Option<string>,
    tags: seq<string>,
    firstSeen: Option<string>,
    source: string)

  /** A fetch's summary; `error` is present only on failure. */
  datatype Fetched<T> = Fetched(status: string, items: seq<T>, total: nat, error: Option<string>)

  const MaxItems := 20
  const MaxIndicators := 10

  function ProcessSample(s: RawSample): (p: Sample)
    ensures p.source == "malwarebazaar" && p.sha256Hash == s.sha256Hash && p.fileName == s.fileName
    ensures p.fileType == s.fileType && p.signature == s.signature && p.firstSeen == s.firstSeen
    ensures s.tags.None? ==> p.tags == []
    ensures s.tags.Some? ==> p.tags == s.tags.value
  {
    Sample(s.sha256Hash, s.fileType, s.fileName, s.signature, s.tags.GetOr([]), s.firstSeen, "malwarebazaar")
  }

  /** The first `n` elements, or all when there are fewer. */
  function Take<T>(xs: seq<T>, n: nat): (ys: seq<T>)
    ensures |ys| == if |xs| < n then |xs| else n
    ensures ys == xs[..|ys|]
  {
    if |xs| <= n then xs else xs[..n]
  }

  /** A failed fetch. */
  function Failed<T>(reason: string): (f: Fetched<T>)
    ensures f.status == "failed" && f.items == [] && f.total == 0 && f.error == Some(reason)
  {
    Fetched("failed", [], 0, Some(reason))
  }

  /** The MalwareBazaar fetch: a 200 answer with `query_status` "ok" gives
      the first 20 samples; any other answer names its status code (also a
      200 that was not "ok"); an exception gives its message. */
  function FetchMalwareBazaarSamples(response: Outcome<BazaarBody>): (r: Fetched<Sample>)
    ensures r.status == "success" <==>
      response.Got? && response.status == 200 && response.body.queryStatus == Some("ok")
    ensures r.status == "success" ==>
      var data := response.body.data.GetOr([]);
      && |r.items| == (if |data| < MaxItems then |data| else MaxItems)
      && r.total == |r.items| && r.error.None?
      && forall k :: 0 <= k < |r.items| ==> r.items[k] == ProcessSample(data[k])
    ensures r.status != "success" ==> r.status == "failed" && r.items == [] && r.total == 0
    ensures response.Got? && r.status != "success" ==>
      r.error == Some("HTTP " + Text.NatToString(response.status))
    ensures response.Raised? ==> r.error == Some(response.message)
  {
    match response
    case Raised(message) => Failed(message)
    case Got(status, body) =>
      if status == 200 && body.queryStatus == Some("ok") then
        var first := Take(body.data.GetOr([]), MaxItems);
        var samples := seq(|first|, k requires 0 <= k < |first| => ProcessSample(first[k]));
        Fetched("success", samples, |samples|, None)
      else
        Failed("HTTP " + Text.NatToString(status))
  }

  // ----------------------------------------------------------------- OTX

  datatype RawIndicator = RawIndicator(kind: Option<string>, indicator: Option<string>, description: Option<string>)

  datatype RawPulse = RawPulse(
    id: Option<string>,
    name: Option<string>,
    description: Option<string>,
    tags: Option<seq<string>>,
    adversary: Option<string>,
    targetedCountries: Option<seq<string>>,
    malwareFamilies: Option<seq<string>>,
    attackIds: Option<seq<string>>,
    indicators: Option<seq<RawIndicator>>,
    created: Option<string>)

  datatype OtxBody = OtxBody(results: Option<seq<RawPulse>>)

  datatype Indicator = Indicator(kind: Option<string>, indicator: Option<string>, description: string)

  datatype Pulse = Pulse(
    id: Option<string>,
    name: Option<string>,
    description: string,
    tags: seq<string>,
    adversary: string,
    targetedCountries: seq<string>,
    malwareFamilies: seq<string>,
    attackIds: seq<string>,
    indicators: seq<Indicator>,
    created: Option<string>,
    source: string)

  function ProcessIndicator(i: RawIndicator): Indicator {
    Indicator(i.kind, i.indicator, i.description.GetOr(""))
  }

  /** A processed pulse: at most ten indicators, absent texts and lists
      become empty. */
  function ProcessPulse(p: RawPulse): (q: Pulse)
    ensures q.source == "otx" && q.id == p.id && q.name == p.name
    ensures |q.indicators| <= MaxIndicators
    ensures |q.indicators| == |Take(p.indicators.GetOr([]), MaxIndicators)|
    ensures forall k :: 0 <= k < |q.indicators| ==>
      q.indicators[k] == ProcessIndicator(p.indicators.value[k])
    ensures q.description == (if p.description.Some? then p.description.value else "")
    ensures q.adversary == (if p.adversary.Some? then p.adversary.value else "")
    ensures q.tags == (if p.tags.Some? then p.tags.value else [])
    ensures q.targetedCountries == (if p.targetedCountries.Some? then p.targetedCountries.value else [])
    ensures q.malwareFamilies == (if p.malwareFamilies.Some? then p.malwareFamilies.value else [])
    ensures q.attackIds == (if p.attackIds.Some? then p.attackIds.value else [])
    ensures q.created == p.created
  {
    var first := Take(p.indicators.GetOr([]), MaxIndicators);
    var indicators := seq(|first|, k requires 0 <= k < |first| => ProcessIndicator(first[k]));
    Pulse(p.id, p.name, p.description.GetOr(""), p.tags.GetOr([]), p.adversary.GetOr(""),
          p.targetedCountries.GetOr([]), p.malwareFamilies.GetOr([]), p.attackIds.GetOr([]),
          indicators, p.created, "otx")
  }

  /** The OTX fetch: a 200 answer gives the first 20 pulses; any other
      answer names its status code; an exception gives its message. */
  function FetchOtxPulses(response: Outcome<OtxBody>): (r: Fetched<Pulse>)
    ensures r.status == "success" <==> response.Got? && response.status == 200
    ensures r.status == "success" ==>
      var pulses := response.body.results.GetOr([]);
      && |r.items| == (if |pulses| < MaxItems then |pulses| else MaxItems)
      && r.total == |r.items| && r.error.None?
      && forall k :: 0 <= k < |r.items| ==> r.items[k] == ProcessPulse(pulses[k])
    ensures r.status != "success" ==> r.status == "failed" && r.items == [] && r.total == 0
    ensures response.Got? && r.status != "success" ==>
      r.error == Some("HTTP " + Text.NatToString(response.status))
    ensures response.Raised? ==> r.error == Some(response.message)
  {
    match response
    case Raised(message) => Failed(message)
    case Got(status, body) =>
      if status == 200 then
        var first := Take(body.results.GetOr([]), MaxItems);
        var pulses := seq(|first|, k requires 0 <= k < |first| => ProcessPulse(first[k]));
        Fetched("success", pulses, |pulses|, None)
      else
        Failed("HTTP " + Text.NatToString(status))
  }

  // ------------------------------------------------------------ combined

  datatype Combined = Combined(status: string, malwarebazaar: Fetched<Sample>, otx: Fetched<Pulse>, totalItems: nat)

  /** Both fetches, MalwareBazaar first; the combined status is always
      "success", whatever the parts report. */
  function FetchAllFeeds(bazaar: Outcome<BazaarBody>, otx: Outcome<OtxBody>): (c: Combined)
    ensures c.status == "success"
    ensures c.malwarebazaar == FetchMalwareBazaarSamples(bazaar) && c.otx == FetchOtxPulses(otx)
    ensures c.totalItems == |c.malwarebazaar.items| + |c.otx.items| <= 2 * MaxItems
  {
    var mb := FetchMalwareBazaarSamples(bazaar);
    var ox := FetchOtxPulses(otx);
    Combined("success", mb, ox, mb.total + ox.total)
  }

  /** Even when both sources fail, the combined status is "success" and it
      holds no item. */
  lemma BothFailStillSuccess(m1: string, m2: string)
    ensures var c := FetchAllFeeds(Raised(m1), Raised(m2));
      c.status == "success" && c.totalItems == 0
      && c.malwarebazaar.status == "failed" && c.otx.status == "failed"
  {
  }
}

=== FILE: toasts.dfy ===
/** The notification boundary both pages use (the `sonner` toast calls): a
    toast is a kind and a text. */
module Toasts {

  datatype Toast = ErrorToast(text: string) | SuccessToast(text: string) | InfoToast(text: string)
}

=== FILE: wrappers.dfy ===
/** Optional values and success/failure results shared by every module.
    `None` stands for a JSON key that is absent (or a JavaScript `undefined`). */
module Wrappers {

  datatype Option<+T> = None | Some(value: T) {

    /** The wrapped value, or `default` when absent. */
    function GetOr(default: T): T {
      match this
      case Some(v) => v
      case None => default
    }
  }

  datatype Result<+R, +E> = Success(value: R) | Failure(error: E)
}

/** The outcome of one outgoing HTTP call as the backend sees it: a response
    with its status code and decoded body, or an exception and its message
    (connection failure, timeout, undecodable body). */
module Http {

  datatype Outcome<+T> = Got(status: nat, body: T) | Raised(message: string)
}
